=== FILE: README.md ===
# Attendance kiosk core, modelled in Dafny

The kiosk is a desktop attendance terminal. A camera loop detects faces
(MTCNN), optionally judges whether each face is live or a spoof (texture,
blink, motion and depth heuristics fused into one score), recognises the
face by the nearest stored FaceNet embedding, and logs a check-in. A
five-pose registration protocol enrols new employees.

This project models the decision logic of that core as pure Dafny
functions and a few methods, and proves properties of it:

- `LocalBinaryPattern` (lbp.dfy) models the 8-neighbour local binary pattern of a grey image.
- `Blink` (blink.dfy) models the ten-sample eye-distance buffer and its variance test.
- `Scorers` (scorers.dfy) models the scoring tails of the texture, motion and depth analyses.
- `Fusion` (fusion.dfy) models `check_liveness`: the score map, its mean and the threshold.
- `Detection` (detection.dfy) models the confidence filter and the crop loop of `detect_faces`.
- `Recognition` (recognition.dfy) models the in-memory gallery:
  - `recognize_face`;
  - `register_face`;
  - `delete_employee`;
  - load, save and clear of the embeddings.
- `Registration` (registration.dfy) models the state of the five-pose protocol.
- `Attendance` (attendance.dfy) models the decision half of `log_attendance`.
- `CameraFeed` (camera_feed.dfy) models the per-face branch of the camera loop, and the pairing of crops with detections.
- `OrderedDict`, `Stats` and `Wrappers` support the other modules:
  - `OrderedDict` is Python's insertion-ordered dict;
  - `Stats` covers sums, means and population variance;
  - `Wrappers` provides `Option`.

Library calls are not modelled; their results enter as parameters. This covers:

- OpenCV measurements: FFT band ratio, Canny edge density, HSV histogram variance, Sobel gradient, Otsu ratios, contour count, Farneback flow statistics;
- the MTCNN detector output;
- the FaceNet embedding distance;
- the database lookup of the last check-in;
- the clock.

Real numbers stand in for floats.

## Model

| member | source | states |
|---|---|---|
| `LocalBinaryPattern.Code` | anti_spoofing.py:197-208 | A pixel's code is at most 255, and bit 7-k is set exactly when neighbour k (clockwise from the top-left) is strictly brighter than the centre |
| `LocalBinaryPattern.Lbp` | anti_spoofing.py:190-212 | The code grid has (rows-2) x (cols-2) entries; entry [a][b] is the 8-bit code of pixel (a+1, b+1) |
| `LocalBinaryPattern.PixelCode` | anti_spoofing.py:197-210 | OR-ing the eight comparisons in at bits 7 down to 0 gives exactly that pixel's code |
| `LocalBinaryPattern.ComputeLbp` | anti_spoofing.py:190-212 | The nested loops produce exactly the code grid |
| `LocalBinaryPattern.UniformLbpZero` | anti_spoofing.py:190-212 | A flat image has no strictly brighter neighbour, so every code is 0 |
| `LocalBinaryPattern.PackBitsBit` | anti_spoofing.py:201-208 | Packing comparisons most-significant first puts comparison k at bit 7-k |
| `Blink.Push` | anti_spoofing.py:126-129 | The newest distance is appended last. Below ten samples nothing is lost; at ten, exactly the oldest is evicted, so the buffer never exceeds ten |
| `Blink.DetectBlink` | anti_spoofing.py:102-137 | Without landmarks the buffer is unchanged and both flags are false. Otherwise the distance is pushed, and a blink is reported exactly when at least five samples have population variance above 10. Both returned flags are equal |
| `Blink.FeedKeepsMostRecent` | anti_spoofing.py:126-129 | After any run of calls the buffer holds exactly the most recent (at most ten) distances, oldest first |
| `Blink.FeedFromEmpty` | anti_spoofing.py:126-129 | From an empty buffer, n calls leave min(n, 10) samples: the last ten, or all of them |
| `Blink.SteadyEyesNoBlink` | anti_spoofing.py:132-137 | A buffer of identical distances (variance 0) never reports a blink |
| `Scorers.Term` | anti_spoofing.py:181-184 | A weighted term `min(x, 1.0) * w` is at most w, and non-negative for non-negative x |
| `Scorers.LbpVariance` | anti_spoofing.py:154-155 | The LBP variance is `np.var` (population variance) of the flattened code grid, so it is non-negative |
| `Scorers.UniformLbpVarianceZero` | anti_spoofing.py:154-155 | A flat crop has LBP variance 0 |
| `Scorers.TextureScore` | anti_spoofing.py:181-186 | The texture score is at most 1, and at least 0 for non-negative measurements |
| `Scorers.TextureAnalysis` | anti_spoofing.py:139-188 | Texture analysis of a grey crop, computing its own LBP variance, lies in [0, 1] when the library measurements are non-negative |
| `Scorers.FlatTexture` | anti_spoofing.py:139-188 | A flat crop with no high frequencies and no edges scores at most 0.25, whatever its colour histogram |
| `Scorers.TextureMonotone` | anti_spoofing.py:181-186 | Raising any measurement never lowers the texture score |
| `Scorers.TextureRanksLbpVariance` | anti_spoofing.py:181 | Below the cap, more LBP variance gives a strictly higher score, other measurements equal |
| `Scorers.MotionAnalysis` | anti_spoofing.py:214-272 | Without a previous frame, or with a frame of another shape, the score is the neutral 0.5. The score is at most 1, at least 0 for non-negative flow statistics, and bounded by the variance term plus 0.6 |
| `Scorers.StillSceneMotion` | anti_spoofing.py:266-270 | Two frames with no flow magnitude score at most 0.3 |
| `Scorers.DepthScore` | anti_spoofing.py:306-310 | The depth score is at most 1, and at least 0 for a non-negative gradient mean |
| `Scorers.FlatDepth` | anti_spoofing.py:306-310 | A crop without gradient scores at most 0.6 |
| `Fusion.Scores` | anti_spoofing.py:328-348 | The score map has a key exactly for each enabled method whose input is present, each holding that method's score |
| `Fusion.CheckLiveness` | anti_spoofing.py:314-359 | The score map has the right keys and values; the blink buffer advances only when blink is on and landmarks are given. The total is the map's mean, or 0.5 when it is empty; the face is real exactly when the total reaches the threshold |
| `Fusion.ScoreValuesEmpty` | anti_spoofing.py:351-354 | The list of score values is empty exactly when the map is |
| `Fusion.ValuesPermutation` | anti_spoofing.py:352 | Listing the map's keys in another order only permutes the values |
| `Fusion.TotalOrderIndependent` | anti_spoofing.py:351-354 | The fused total does not depend on the order in which methods are consulted |
| `Fusion.TotalInUnit` | anti_spoofing.py:351-354 | Sub-scores in [0, 1] fuse to a total in [0, 1] |
| `Fusion.CheckLivenessTotalInUnit` | anti_spoofing.py:314-359 | With non-negative measurements every sub-score, and the total, lies in [0, 1] |
| `Fusion.AllDisabledIsNeutral` | anti_spoofing.py:351-357 | With every method off the map is empty, the total is 0.5, and the verdict is 0.5 against the threshold |
| `Fusion.UniformCropIsFake` | anti_spoofing.py:314-359 | A flat crop judged by texture and depth alone is fake at the shipped threshold 0.7 |
| `Fusion.StillFramesAreFake` | anti_spoofing.py:340-357 | Two identical frames, judged by motion alone, score at most 0.3 and are fake |
| `Detection.Trunc` | face_recognition.py:115 | `int()` on a float truncates toward zero: for x >= 0 the result is the largest integer not above x, and for x < 0 the smallest integer not below x |
| `Detection.SliceLength` | face_recognition.py:121-125 | Slicing with Python's negative-index and clamping rules selects at most n elements: stop - start within bounds, and none when stop <= start on the same side of zero |
| `Detection.ConfidentIndices` | face_recognition.py:102-104 | The kept indices are increasing and are exactly those with probability above the minimum |
| `Detection.ConfidentNone` | face_recognition.py:102-110 | Nothing is kept exactly when no probability exceeds the minimum |
| `Detection.CroppedIndices` | face_recognition.py:113-129 | The boxes that get a crop are increasing and are exactly those that pass both skips (degenerate rectangle, empty slice) |
| `Detection.Crops` | face_recognition.py:113-129 | One crop per surviving box, in box order, cut at the truncated rectangle |
| `Detection.DetectFaces` | face_recognition.py:80-131 | Nothing is returned when there are no detections, or none is confident. Otherwise boxes, probabilities and landmarks are the confident ones, in order; the crops are those of the surviving boxes, in box order, and can be fewer than the boxes |
| `Detection.AllCropsKept` | face_recognition.py:113-131 | When every box is valid and inside the frame, crop j is cut from box j |
| `Recognition.ClearMemory` | face_recognition.py:269-273 | Both dictionaries are empty |
| `Recognition.Nearest` | face_recognition.py:202-211 | The strict `<` scan finds an entry at minimum distance that is strictly nearer than every earlier entry, so ties go to the first inserted |
| `Recognition.RecognizeFace` | face_recognition.py:183-218 | An empty gallery gives (None, "Unknown", 1.0). Otherwise the distance is the minimum over the gallery, and an id is returned exactly when that distance is below the configured 0.6: the first nearest id, with its name or "Unknown" |
| `Recognition.AverageEmbedding` | face_recognition.py:173 | The mean embedding has the samples' dimension |
| `Recognition.AverageOfCopies` | face_recognition.py:173 | Averaging copies of one embedding gives it back |
| `Recognition.AverageWithinRange` | face_recognition.py:173 | Each coordinate of the mean lies within the samples' range |
| `Recognition.RegisterFace` | face_recognition.py:173-178 | The id maps to the mean embedding and the given name; every other id is untouched; keys stay distinct. A new id is appended at the end of both dictionaries' key order and a known id keeps its place, as Python dict assignment does |
| `Recognition.DeleteEmployee` | face_recognition.py:30-33 | The id is gone from both dictionaries; every other id keeps its value and its insertion order; an unknown id changes nothing |
| `Recognition.DeletedNeverMatches` | face_recognition.py:30-33 | No entry of the gallery after deletion carries the deleted id, so it can never be recognised |
| `Recognition.SaveEmbeddings` | face_recognition.py:226-231 | Both keys are present in the saved dictionary |
| `Recognition.LoadEmbeddings` | face_recognition.py:220-224 | A missing key loads as an empty dictionary and a present one is taken as is; the loaded gallery has distinct keys, as Python dictionaries do |
| `Recognition.LoadSaveRoundTrip` | face_recognition.py:220-231 | Loading what was saved restores both dictionaries of a gallery with distinct keys, insertion order included |
| `Recognition.LoadNothingIsEmpty` | face_recognition.py:220-224 | Loading an empty dictionary is the same as clearing memory |
| `OrderedDict.Set` | face_recognition.py:177-178 | `d[k] = v` keeps keys distinct, maps k to v, leaves other keys alone, and appends k only when it is new |
| `OrderedDict.Remove` | face_recognition.py:30-33 | `if k in d: del d[k]` removes k, keeps every other key's value, keeps the remaining keys in insertion order, and changes nothing when k is absent |
| `Registration.InitialInv` | main.py:48-58 | The window starts in a state satisfying the protocol invariant |
| `Registration.InvCountsFlags` | main.py:735-750 | Under the invariant, the number of captured flags equals the pose index, the image count and the pose count |
| `Registration.Strip` | main.py:696-697 | `str.strip()` removes only whitespace, from both ends, and leaves an infix with no whitespace at either end; it is empty exactly when the input is all whitespace |
| `Registration.StripUnique` | main.py:696-697 | Any infix with only whitespace outside it and none at its ends is the stripped string, so the contract of `Strip` determines its result |
| `Registration.StartRegistration` | main.py:694-715 | A blank id or name is refused first, then a stopped camera; a refusal changes nothing. A start enters registration mode with the stripped id and name, no images and no flags |
| `Registration.SeeFace` | main.py:401-404 | In registration mode the latest face becomes the face to capture; outside it nothing changes; no other field changes, and the protocol invariant is preserved |
| `Registration.CapturePoseImage` | main.py:726-764 | It does nothing once five poses are taken or without a face. Otherwise it appends the face and the current pose, sets the pose's flag, advances the index, resets timer and face, and asks for completion exactly after the fifth pose. The invariant is preserved |
| `Registration.HoldElapsed` | main.py:653-682 | A held countdown captures only in registration mode with a face, and preserves the invariant |
| `Registration.Session` | main.py:653-682 | Any run of held faces preserves the invariant |
| `Registration.SessionCaptures` | main.py:726-764 | Starting from a fresh start, holding k <= 5 faces captures exactly those faces, under the first k pose names, in order |
| `Registration.CompleteRegistration` | main.py:774-830 | Registration mode always ends. Below five images nothing else changes. Otherwise the face is registered exactly when the database accepted the id (a refusal means the id is a duplicate), and images, poses, index and flags are reset, while the employee id, name, timer and current face are kept |
| `Registration.CompleteHandsOverFivePoses` | main.py:787-803 | A protocol that reached the end hands over five images, under the five pose names in order |
| `Registration.CancelRegistration` | main.py:832-840 | Cancelling returns to the initial protocol state, keeping only the id and name fields |
| `Attendance.LogAttendance` | main.py:847-869 | A check-in is refused exactly when a same-day check-in is under 300 seconds old; otherwise it carries the id and confidence, and is late exactly when the time of day is strictly after 08:00 |
| `Attendance.NoGracePeriod` | main.py:859-862 | 08:00:00 is on time but 08:05 is late, although the configured grace period is 15 minutes |
| `Attendance.LatestOn` | database.py:227-239 | The lookup finds nothing exactly when no check-in is on that date; otherwise it returns a check-in of that date with the latest time of day |
| `Attendance.Logged` | main.py:847-869 | Each recognition is checked against the latest check-in already logged on its date; the log only holds times that were recognised, in order |
| `Attendance.LoggedAreSpaced` | main.py:850-857 | Any two logged check-ins on the same date are at least 300 seconds apart, whatever was logged between them |
| `Attendance.ClockBackStillSpaced` | main.py:850-857 | With the clock set back across midnight and forward again, a recognition 60 seconds after a check-in of the same date is still refused |
| `Attendance.MidnightResetsSpacing` | main.py:850-857 | Check-ins either side of midnight are both logged, even two seconds apart |
| `CameraFeed.ProcessFace` | main.py:393-430 | A face judged fake gets red "FAKE DETECTED". In registration it gets cyan, is stored, and shows the pose hint (or "HOÀN THÀNH" after five). Otherwise a recognised face gets green with its name and is logged; anything else gets orange "UNKNOWN" |
| `CameraFeed.FakeOnlyWhenChecked` | main.py:393-396 | Red marks exactly the faces judged fake, and with the check skipped no face is ever fake |
| `CameraFeed.KioskMotionIsNeutral` | anti_spoofing.py:229-231 | A 160 x 160 crop compared with a 640 x 480 frame always gets the neutral 0.5 |
| `CameraFeed.KioskLivenessMotionNeutral` | main.py:394-397 | If the check ran, the loop's motion sub-score would always be 0.5 |
| `CameraFeed.DetectionsParallel` | face_recognition.py:102-131 | With landmarks, the detector's outputs are parallel arrays with no more crops than boxes |
| `CameraFeed.PairAsWritten` | main.py:391 | `zip` pairs crop j with box j and yields as many pairs as crops |
| `CameraFeed.OneFaceCut` | face_recognition.py:113-129 | In the two-box example only the good box yields a crop |
| `CameraFeed.ZipMisaligns` | main.py:391 | In the two-box example the only crop is drawn and labelled at the swapped box it was not cut from |
| `CameraFeed.PairByBox` | main.py:391 | Corrected pairing: every crop travels with the box it was cut from, which is a confident, valid detection |
| `CameraFeed.PairByBoxAgreesWithoutSkips` | main.py:391 | When no box is skipped, the corrected pairing equals the zip |
| `CameraFeed.ProcessDetections` | main.py:383-430 | As written, given what `detect_faces` returned: there is one outcome per crop, and crop j's outcome is drawn at box j; no detections give no outcomes |
| `CameraFeed.ProcessDetectionsByBox` | main.py:383-430 | Corrected loop: there is one outcome per crop, and crop j's outcome is drawn at a confident, valid box whose crop is crop j; no detections give no outcomes |
| `CameraFeed.ProcessDetectionsAgree` | main.py:383-430 | When no box is skipped, the loop as written and the corrected loop give the same outcomes at the same boxes |
| `CameraFeed.ProcessedAtWrongBox` | main.py:391 | In the two-box example, the loop as written draws the good box's outcome at the swapped box; the corrected loop draws it at the good box |

## Left out

- Image processing and model inference are parameters:
  - colour conversion;
  - FFT, Canny, HSV histogram, Sobel, Otsu, contours;
  - Farneback optical flow;
  - resizing to 160 x 160;
  - MTCNN and FaceNet;
  - numpy norms.
- `calculate_ear` and the blink-related configuration values are left out. The loop never calls them.
- MongoDB, SQLite, report export, the Tk user interface, HUD drawing, message boxes and the camera thread are left out. They are I/O.
- `delete_all_employees` is left out because it is a storage reset. Its in-memory part equals `Recognition.ClearMemory`.
- `ready_for_next_pose` is left out. It only updates a label.
- Floats are modelled as exact reals. Rounding, NaN and infinities are not modelled.
- The database stores check-in times as text at whole seconds. The model keeps the exact time of the earlier check-in.
- The 0.03 s per-frame timer is not modelled. Holding a pose for two seconds is an event (`Registration.HoldElapsed`), and the timer is only reset.
- `Registration.Strip` treats only ASCII whitespace (and Python's four ASCII separator characters) as space. Unicode whitespace above code point 127 is not modelled.
- `Scorers.MotionAnalysis` omits the source's resize when grey shapes differ. That branch is unreachable: equal colour shapes give equal grey shapes.
- `Scorers.MotionAnalysis` needs non-negative flow statistics for its lower bound. The entropy's `+1e-6` inside the logarithm can make it slightly negative.
- `Scorers.TextureAnalysis` requires a crop of at least 3 x 3. Below that, numpy's variance of an empty code grid is NaN.
- `LocalBinaryPattern.Lbp` requires at least a 2 x 2 image. Below that, numpy refuses the negative array shape.
- Landmarks being `None` while boxes are found would make the loop's `zip` raise a TypeError. `CameraFeed.PairByBox` and `CameraFeed.ProcessDetections` require landmarks instead.
- The blink buffer is shared by every face of a frame. The model threads one buffer through `Fusion.CheckLiveness` calls and does not model interleaving across faces.
- `detect_blink` computes `np.var`, a population variance (anti_spoofing.py:132-137). The model uses the same population variance.
- `motion_analysis` returns 0.5 when the frame shapes differ (anti_spoofing.py:229-231), before it reaches its resize. The model returns 0.5 there too.
- `Attendance.LogAttendance` does not model the database write or the `int(is_late)` conversion.
- `LATE_THRESHOLD_MINUTES` and `WORK_END_TIME` are read nowhere in the code. `Attendance.NoGracePeriod` records the consequence.

## Findings

| source | as written | input that shows it | evidently intended | confidence | as-written member | corrected member |
|---|---|---|---|---|---|---|
| main.py:391 | `zip(faces, boxes, probs, landmarks)` pairs crop j with box j. `detect_faces` skips invalid boxes when cutting crops but returns every confident box, so after a skip every later crop is paired with an earlier box. | Two confident boxes: (50, 40, 30, 90), with x2 < x1, and (200, 100, 320, 240). The only crop, cut from the second box, is drawn, labelled and logged at the first. A detector's square boxes rarely have x2 < x1. The likely trigger is a box past the left edge, such as (-5.4, 100, 40, 200): its slice `[100:200, -5:40]` is empty, so it is skipped in the same way (`Detection.LeftEdgeBoxSkipped`). | Each crop is processed with the box, probability and landmarks it was cut from. | not executed | `CameraFeed.ZipMisaligns` | `CameraFeed.PairByBox` |

=== FILE: attendance.dfy ===
/**
 The decision half of the kiosk's `log_attendance`: a recognised employee
 is logged unless their latest check-in of the same day is under five
 minutes old, and is late when the check-in falls strictly after 08:00.
 The database lookup and the clock are inputs; the record written and the
 log text shown are not modelled.
 */
module Attendance {
  import opened Wrappers

  const MinTimeBetweenCheckins: real := 300.0
  /** 08:00 as seconds since midnight. */
  const WorkStart: real := 28800.0
  const SecondsPerDay: real := 86400.0
  /** Configured as 15 but never read: lateness uses no grace period. */
  const LateThresholdMinutes: nat := 15

  datatype Timestamp = Timestamp(day: int, secondOfDay: real)

  function Seconds(t: Timestamp): real
  {
    (t.day as real) * SecondsPerDay + t.secondOfDay
  }

  datatype CheckIn = CheckIn(employeeId: string, confidence: real, isLate: bool)

  /**
   `lastToday` is the latest check-in the database holds for this employee
   on the current date. `None` means the check-in was refused as too soon.
   */
  function LogAttendance(now: Timestamp, lastToday: Option<Timestamp>, employeeId: string, confidence: real)
    : (r: Option<CheckIn>)
    ensures r.None? <==> lastToday.Some? && Seconds(now) - Seconds(lastToday.value) < MinTimeBetweenCheckins
    ensures r.Some? ==> r.value.employeeId == employeeId && r.value.confidence == confidence
    ensures r.Some? ==> (r.value.isLate <==> now.secondOfDay > WorkStart)
  {
    if lastToday.Some? && Seconds(now) - Seconds(lastToday.value) < MinTimeBetweenCheckins then None
    else Some(CheckIn(employeeId, confidence, now.secondOfDay > WorkStart))
  }

  /**
   Exactly 08:00:00 is on time; five minutes later is already late, although
   five minutes is well inside the 15-minute `LateThresholdMinutes` setting,
   which the decision never reads.
   */
  lemma NoGracePeriod(day: int, last: Option<Timestamp>, id: string, confidence: real)
    requires last.None?
    ensures !LogAttendance(Timestamp(day, WorkStart), last, id, confidence).value.isLate
    ensures LogAttendance(Timestamp(day, WorkStart + 300.0), last, id, confidence).value.isLate
  {
  }

  /**
   The check-in the database lookup returns: among the entries of `l` on
   `day`, one with the latest time of day, as `ORDER BY datetime DESC
   LIMIT 1` over the rows of that date picks it.
   */
  function LatestOn(l: seq<Timestamp>, day: int): (r: Option<Timestamp>)
    ensures r.None? <==> forall i :: 0 <= i < |l| ==> l[i].day != day
    ensures r.Some? ==> r.value.day == day && r.value in l
    ensures r.Some? ==> forall i :: 0 <= i < |l| && l[i].day == day ==> l[i].secondOfDay <= r.value.secondOfDay
  {
    if |l| == 0 then None
    else
      var rest := LatestOn(l[..|l| - 1], day);
      var x := l[|l| - 1];
      if x.day != day then rest
      else if rest.Some? && x.secondOfDay <= rest.value.secondOfDay then rest
      else Some(x)
  }

  /**
   The check-ins logged for one employee from recognitions at `times`, in
   the order they happen. Each recognition is checked against the latest
   check-in already logged on its own date, wherever that entry sits in the
   log, so a clock set back and forward again is still caught.
   */
  function Logged(times: seq<Timestamp>, id: string, confidence: real): (r: seq<Timestamp>)
    ensures |r| <= |times|
    ensures forall k :: 0 <= k < |r| ==> r[k] in times
  {
    if |times| == 0 then []
    else
      var prev := Logged(times[..|times| - 1], id, confidence);
      var t := times[|times| - 1];
      if LogAttendance(t, LatestOn(prev, t.day), id, confidence).Some? then prev + [t] else prev
  }

  /** Any two check-ins on the same date are at least five minutes apart, in the order logged. */
  predicate Spaced(l: seq<Timestamp>)
  {
    forall i, j :: 0 <= i < j < |l| && l[i].day == l[j].day ==> Seconds(l[j]) - Seconds(l[i]) >= MinTimeBetweenCheckins
  }

  lemma {:induction false} LoggedAreSpaced(times: seq<Timestamp>, id: string, confidence: real)
    ensures Spaced(Logged(times, id, confidence))
  {
    if |times| > 0 {
      var prev := Logged(times[..|times| - 1], id, confidence);
      LoggedAreSpaced(times[..|times| - 1], id, confidence);
      var t := times[|times| - 1];
      var last := LatestOn(prev, t.day);
      var l := Logged(times, id, confidence);
      if LogAttendance(t, last, id, confidence).Some? {
        assert l == prev + [t];
        forall i, j | 0 <= i < j < |l| && l[i].day == l[j].day
          ensures Seconds(l[j]) - Seconds(l[i]) >= MinTimeBetweenCheckins
        {
          if j < |prev| {
            assert l[i] == prev[i] && l[j] == prev[j];
          } else {
            assert l[j] == t && l[i] == prev[i];
            assert last.Some? && prev[i].secondOfDay <= last.value.secondOfDay;
          }
        }
      }
    }
  }

  /**
   A clock set back across midnight and forward again: the recognition at
   10:01 on day 1 is refused, because the lookup finds the 10:00 check-in of
   day 1 even though a day-0 check-in was logged in between.
   */
  lemma ClockBackStillSpaced(id: string, confidence: real)
    ensures var times := [Timestamp(1, 36000.0), Timestamp(0, 43200.0), Timestamp(1, 36060.0)];
            Logged(times, id, confidence) == times[..2]
  {
    var times := [Timestamp(1, 36000.0), Timestamp(0, 43200.0), Timestamp(1, 36060.0)];
    var p := [Timestamp(1, 36000.0), Timestamp(0, 43200.0)];
    assert times[..2] == p;
    assert p[..1] == [Timestamp(1, 36000.0)] && p[..1][..0] == [];
    assert Logged(p[..1], id, confidence) == [Timestamp(1, 36000.0)];
    assert Logged(p, id, confidence) == p;
    assert LatestOn(p, 1) == Some(Timestamp(1, 36000.0));
  }

  /**
   The spacing restarts at midnight: a recognition one second into a new day
   is logged even though the previous check-in was two seconds earlier.
   */
  lemma MidnightResetsSpacing(id: string, confidence: real)
    ensures var times := [Timestamp(0, 86399.0), Timestamp(1, 1.0)];
            Logged(times, id, confidence) == times
            && Seconds(times[1]) - Seconds(times[0]) == 2.0
  {
    var times := [Timestamp(0, 86399.0), Timestamp(1, 1.0)];
    assert times[..1] == [Timestamp(0, 86399.0)];
    assert times[..1][..0] == [];
    assert Logged(times[..1], id, confidence) == [Timestamp(0, 86399.0)];
  }
}

=== FILE: blink.dfy ===
/**
 The coarse blink detector (`AntiSpoofing.detect_blink`): a FIFO of the
 last ten left-eye/right-eye distances, and a variance test over it.
 The eye distance itself (the Euclidean norm of the first two landmark
 points) is computed by numpy and enters as a number.
 */
module Blink {
  import opened Wrappers
  import opened Stats

  const Capacity: nat := 10
  const MinSamples: nat := 5
  const VarianceThreshold: real := 10.0

  type History = seq<real>

  /** Append the newest distance; evict the oldest once more than ten are held. */
  function Push(h: History, d: real): (r: History)
    ensures |r| > 0 && r[|r| - 1] == d
    ensures |h| < Capacity ==> |r| == |h| + 1 && r[..|r| - 1] == h
    ensures |h| >= Capacity ==> |r| == |h| && r[..|r| - 1] == h[1..]
    ensures |h| <= Capacity ==> |r| <= Capacity
  {
    var appended := h + [d];
    assert appended[..|h|] == h;
    if |appended| > Capacity then
      assert appended[1..][..|h| - 1] == h[1..];
      appended[1..]
    else appended
  }

  datatype BlinkResult = BlinkResult(history: History, isBlinking: bool, blinkDetected: bool)

  /** The decision on the updated buffer. */
  predicate Detects(h: History)
  {
    |h| >= MinSamples && PopVariance(h) > VarianceThreshold
  }

  /**
   `eyeDistance` is None when the detector produced no landmarks; then nothing
   changes. Otherwise the distance is pushed and the buffer judged.
   */
  function DetectBlink(h: History, eyeDistance: Option<real>): (r: BlinkResult)
    ensures eyeDistance.None? ==> r == BlinkResult(h, false, false)
    ensures eyeDistance.Some? ==> r.history == Push(h, eyeDistance.value)
    ensures r.isBlinking == r.blinkDetected
    ensures r.blinkDetected <==>
              eyeDistance.Some? && |r.history| >= MinSamples && PopVariance(r.history) > VarianceThreshold
  {
    match eyeDistance
    case None => BlinkResult(h, false, false)
    case Some(d) =>
      var h' := Push(h, d);
      if Detects(h') then BlinkResult(h', true, true) else BlinkResult(h', false, false)
  }

  /** The buffer after a run of detector calls that all had landmarks. */
  function Feed(h: History, ds: seq<real>): History
  {
    if |ds| == 0 then h else Push(Feed(h, ds[..|ds| - 1]), ds[|ds| - 1])
  }

  function Max(a: int, b: int): int
  {
    if a >= b then a else b
  }

  /** Sliding the ten-sample window one sample further along a sequence. */
  lemma WindowStep(all: seq<real>, prev: seq<real>)
    requires |all| > 0 && prev == all[Max(0, |all| - 1 - Capacity)..|all| - 1]
    ensures |prev| <= Capacity
    ensures |prev| + 1 > Capacity ==> (prev + [all[|all| - 1]])[1..] == all[Max(0, |all| - Capacity)..]
    ensures |prev| + 1 <= Capacity ==> prev + [all[|all| - 1]] == all[Max(0, |all| - Capacity)..]
  {
    var m := Max(0, |all| - 1 - Capacity);
    assert prev + [all[|all| - 1]] == all[m..];
  }

  /** The buffer holds exactly the most recent (at most ten) samples, oldest first. */
  lemma {:induction false} FeedKeepsMostRecent(h: History, ds: seq<real>)
    requires |h| <= Capacity
    ensures Feed(h, ds) == (h + ds)[Max(0, |h| + |ds| - Capacity)..]
  {
    if |ds| == 0 {
      assert h + ds == h;
    } else {
      var init := ds[..|ds| - 1];
      var d := ds[|ds| - 1];
      FeedKeepsMostRecent(h, init);
      var prev := Feed(h, init);
      var all := h + ds;
      assert h + init == all[..|all| - 1];
      assert all[..|all| - 1][Max(0, |all| - 1 - Capacity)..] == all[Max(0, |all| - 1 - Capacity)..|all| - 1];
      WindowStep(all, prev);
      assert d == all[|all| - 1];
    }
  }

  /** A sequence of calls starting from an empty buffer: fifteen samples leave the last ten. */
  lemma {:induction false} FeedFromEmpty(ds: seq<real>)
    ensures |Feed([], ds)| == if |ds| <= Capacity then |ds| else Capacity
    ensures |ds| >= Capacity ==> Feed([], ds) == ds[|ds| - Capacity..]
    ensures |ds| < Capacity ==> Feed([], ds) == ds
  {
    FeedKeepsMostRecent([], ds);
    assert [] + ds == ds;
  }

  /** A buffer of identical distances (variance 0) never reports a blink. */
  lemma SteadyEyesNoBlink(h: History, d: real)
    requires Constant(Push(h, d), d)
    ensures !DetectBlink(h, Some(d)).blinkDetected
  {
    var h' := Push(h, d);
    ConstantVarianceZero(h');
  }
}

=== FILE: camera_feed.dfy ===
/**
 The decisions the kiosk's camera loop (`update_camera_feed`) makes for
 every detected face: whether it counts as real, which label and colour it
 gets, whether it is stored for registration and whether attendance is
 logged. Drawing, the HUD and the thread are not modelled.
 */
module CameraFeed {
  import opened Wrappers
  import opened Scorers
  import Fusion
  import Blink
  import Detection
  import Recognition
  import Registration

  /** `skip_anti_spoofing = True`: the shipped loop never runs the liveness check. */
  const SkipAntiSpoofing: bool := true

  /** The loop resizes each camera frame to 640 x 480; crops are 160 x 160. */
  const FrameShape := Shape(480, 640, 3)
  const CropShape := Shape(160, 160, 3)

  /** Colours, in OpenCV's blue-green-red order. */
  datatype Colour = Colour(b: int, g: int, r: int)
  const Red := Colour(0, 0, 255)
  const Cyan := Colour(0, 255, 255)
  const Green := Colour(0, 255, 0)
  const Orange := Colour(0, 165, 255)

  /** The caption drawn above a face. */
  datatype Label =
    | FakeDetected            // "FAKE DETECTED"
    | PoseHint(pose: string)  // the pose name, followed by the remaining seconds of the hold
    | RegistrationDone        // "HOÀN THÀNH"
    | Known(name: string)     // the recognised employee's name
    | UnknownFace             // "UNKNOWN"

  datatype FaceOutcome = FaceOutcome(caption: Label, colour: Colour, storeForRegistration: bool, logAttendance: bool)

  /** Python truthiness of the returned id: `None` and the empty string are false. */
  predicate Recognised(m: Recognition.Match)
  {
    m.id.Some? && m.id.value != ""
  }

  /** Skipping the check or registering forces "real"; otherwise the verdict decides. */
  predicate IsReal(skip: bool, registering: bool, livenessReal: bool)
  {
    skip || registering || livenessReal
  }

  /**
   The per-face branch of the loop. `livenessReal` is the liveness verdict
   (consulted only when neither skip nor registration applies) and `m` the
   recognition result (consulted only for a real face outside registration).
   */
  function ProcessFace(skip: bool, registering: bool, livenessReal: bool, poseIndex: nat, m: Recognition.Match)
    : (o: FaceOutcome)
    ensures !IsReal(skip, registering, livenessReal) ==> o == FaceOutcome(FakeDetected, Red, false, false)
    ensures registering ==> o.colour == Cyan && o.storeForRegistration && !o.logAttendance
    ensures registering && poseIndex < Registration.PoseCount ==> o.caption == PoseHint(Registration.PoseNames[poseIndex])
    ensures registering && poseIndex >= Registration.PoseCount ==> o.caption == RegistrationDone
    ensures !registering && IsReal(skip, registering, livenessReal) ==>
              !o.storeForRegistration
              && (Recognised(m) ==> o == FaceOutcome(Known(m.name), Green, false, true))
              && (!Recognised(m) ==> o == FaceOutcome(UnknownFace, Orange, false, false))
  {
    if !IsReal(skip, registering, livenessReal) then FaceOutcome(FakeDetected, Red, false, false)
    else if registering then
      var caption := if poseIndex < |Registration.PoseNames| then PoseHint(Registration.PoseNames[poseIndex])
                   else RegistrationDone;
      FaceOutcome(caption, Cyan, true, false)
    else if Recognised(m) then FaceOutcome(Known(m.name), Green, false, true)
    else FaceOutcome(UnknownFace, Orange, false, false)
  }

  /** Red marks exactly the faces judged fake, and that never happens in the shipped loop. */
  lemma FakeOnlyWhenChecked(registering: bool, livenessReal: bool, poseIndex: nat, m: Recognition.Match)
    ensures var o := ProcessFace(SkipAntiSpoofing, registering, livenessReal, poseIndex, m);
            o.caption != FakeDetected && o.colour != Red
    ensures forall skip: bool, verdict: bool ::
              (ProcessFace(skip, registering, verdict, poseIndex, m).colour == Red
               <==> !IsReal(skip, registering, verdict))
  {
  }

  /**
   Were the check enabled, it would compare a 160 x 160 crop against the
   whole previous 640 x 480 frame; the shapes never match, so motion always
   contributes the neutral 0.5.
   */
  lemma KioskMotionIsNeutral(flow: FlowStats)
    ensures MotionAnalysis(CropShape, Some(FrameShape), flow) == 0.5
  {
  }

  lemma KioskLivenessMotionNeutral(history: Blink.History, face: Fusion.Face, eyeDistance: Option<real>, flow: FlowStats)
    requires face.shape == CropShape
    requires Fusion.Ready(Fusion.DefaultConfig, face)
    ensures var v := Fusion.CheckLiveness(Fusion.DefaultConfig, history, face, eyeDistance, Some(FrameShape), flow);
            "motion" in v.details && v.details["motion"] == 0.5
  {
  }

  // ------------------------------------------- pairing crops with detections

  /** One face handed to `ProcessFace`, with the detection drawn for it. */
  datatype Pairing = Pairing(face: Detection.Crop, box: Detection.Box, prob: real, landmarks: Detection.LandmarkSet)

  predicate Parallel(d: Detection.Detections)
  {
    d.landmarks.Some? && |d.probs| == |d.boxes| && |d.landmarks.value| == |d.boxes| && |d.faces| <= |d.boxes|
  }

  /**
   As written: `zip(faces, boxes, probs, landmarks)` pairs the j-th crop with
   the j-th box. The crop list skips invalid boxes, so after a skip every
   later crop is paired with an earlier box.
   */
  function PairAsWritten(d: Detection.Detections): (ps: seq<Pairing>)
    requires Parallel(d)
    ensures |ps| == |d.faces|
  {
    seq(|d.faces|, j requires 0 <= j < |d.faces| =>
      Pairing(d.faces[j], d.boxes[j], d.probs[j], d.landmarks.value[j]))
  }

  /** A box with its corners swapped, and a good box, both confident. */
  const SwappedBox := Detection.Box(50.0, 40.0, 30.0, 90.0)
  const GoodBox := Detection.Box(200.0, 100.0, 320.0, 240.0)
  const TwoFaces := Detection.Found([SwappedBox, GoodBox], [0.99, 0.98], Some([[], []]))

  lemma TwoFacesConfident()
    ensures Detection.ConfidentIndices(TwoFaces.probs, Detection.MinConfidence) == [0, 1]
  {
    assert TwoFaces.probs[..1] == [0.99] && [0.99][..0] == [];
  }

  lemma OnlyGoodBoxCropped()
    ensures Detection.CropOf(GoodBox) == Detection.Crop(200, 100, 320, 240)
    ensures Detection.CroppedIndices([SwappedBox, GoodBox], 640, 480) == [1]
  {
    assert Detection.CropOf(SwappedBox) == Detection.Crop(50, 40, 30, 90);
    assert !Detection.CropKept(SwappedBox, 640, 480);
    assert Detection.CropKept(GoodBox, 640, 480);
    assert [SwappedBox, GoodBox][..1] == [SwappedBox] && [SwappedBox][..0] == [];
  }

  lemma TwoFacesDetected()
    ensures Detection.DetectFaces(TwoFaces, 640, 480, Detection.MinConfidence).Some?
  {
    assert TwoFaces.probs[0] > Detection.MinConfidence;
  }

  lemma BothBoxesKept()
    ensures var d := Detection.DetectFaces(TwoFaces, 640, 480, Detection.MinConfidence);
            d.Some? && d.value.boxes == [SwappedBox, GoodBox]
  {
    TwoFacesDetected();
    TwoFacesConfident();
    SelectBoth(TwoFaces.boxes);
  }

  lemma SelectBoth<T>(xs: seq<T>)
    requires |xs| == 2
    ensures Detection.Select(xs, [0, 1]) == xs
  {
    var sel := Detection.Select(xs, [0, 1]);
    assert sel[0] == xs[0] && sel[1] == xs[1];
  }

  lemma OneFaceCut()
    ensures var d := Detection.DetectFaces(TwoFaces, 640, 480, Detection.MinConfidence);
            d.Some? && |d.value.faces| == 1 && d.value.faces[0] == Detection.CropOf(GoodBox)
  {
    BothBoxesKept();
    OnlyGoodBoxCropped();
  }

  lemma TwoFacesParallel()
    ensures var d := Detection.DetectFaces(TwoFaces, 640, 480, Detection.MinConfidence);
            d.Some? && Parallel(d.value)
  {
    TwoFacesDetected();
    DetectionsParallel(TwoFaces, 640, 480, Detection.MinConfidence);
  }

  /** With landmarks, `detect_faces` returns parallel arrays and no more crops than boxes. */
  lemma DetectionsParallel(raw: Detection.Raw, width: nat, height: nat, minConf: real)
    requires Detection.WellFormed(raw) && raw.Found? && raw.landmarks.Some?
    ensures var d := Detection.DetectFaces(raw, width, height, minConf);
            d.Some? ==> Parallel(d.value)
  {
  }

  /** The only face, cut from the good box, is drawn and labelled at the swapped box. */
  lemma ZipMisaligns()
    ensures var d := Detection.DetectFaces(TwoFaces, 640, 480, Detection.MinConfidence);
            && d.Some? && Parallel(d.value)
            && |PairAsWritten(d.value)| == 1
            && PairAsWritten(d.value)[0].face == Detection.Crop(200, 100, 320, 240)
            && PairAsWritten(d.value)[0].box == SwappedBox
            && PairAsWritten(d.value)[0].face != Detection.CropOf(PairAsWritten(d.value)[0].box)
  {
    TwoFacesParallel();
    BothBoxesKept();
    OneFaceCut();
    OnlyGoodBoxCropped();
    assert Detection.CropOf(SwappedBox) == Detection.Crop(50, 40, 30, 90);
  }

  /**
   Corrected: each crop travels with the detection it was cut from, so the
   label, probability and landmarks belong to that face.
   */
  function PairByBox(raw: Detection.Raw, width: nat, height: nat, minConf: real): (ps: seq<Pairing>)
    requires Detection.WellFormed(raw)
    requires var d := Detection.DetectFaces(raw, width, height, minConf);
             d.Some? ==> d.value.landmarks.Some?
    ensures var d := Detection.DetectFaces(raw, width, height, minConf);
            d.Some? ==>
              && |ps| == |d.value.faces|
              && forall j :: 0 <= j < |ps| ==>
                   ps[j].face == d.value.faces[j] && ps[j].face == Detection.CropOf(ps[j].box)
                   && Detection.CropKept(ps[j].box, width, height) && ps[j].box in d.value.boxes
    ensures Detection.DetectFaces(raw, width, height, minConf).None? ==> ps == []
  {
    match Detection.DetectFaces(raw, width, height, minConf)
    case None => []
    case Some(d) =>
      var cs := Detection.CroppedIndices(d.boxes, width, height);
      seq(|cs|, j requires 0 <= j < |cs| =>
        Pairing(d.faces[j], d.boxes[cs[j]], d.probs[cs[j]], d.landmarks.value[cs[j]]))
  }

  /** When no box is skipped, the corrected pairing is the source's zip. */
  lemma PairByBoxAgreesWithoutSkips(raw: Detection.Raw, width: nat, height: nat, minConf: real)
    requires Detection.WellFormed(raw) && raw.Found? && raw.landmarks.Some?
    requires forall i :: 0 <= i < |raw.boxes| ==> Detection.CropKept(raw.boxes[i], width, height)
    ensures var d := Detection.DetectFaces(raw, width, height, minConf);
            d.Some? ==> Parallel(d.value) && PairByBox(raw, width, height, minConf) == PairAsWritten(d.value)
  {
    var d := Detection.DetectFaces(raw, width, height, minConf);
    if d.Some? {
      Detection.AllCropsKept(raw, width, height, minConf);
      var ks := Detection.ConfidentIndices(raw.probs, minConf);
      forall i | 0 <= i < |d.value.boxes| ensures Detection.CropKept(d.value.boxes[i], width, height) {
        assert d.value.boxes[i] == raw.boxes[ks[i]];
      }
      Detection.AllCroppedIndices(d.value.boxes, width, height);
    }
  }

  /**
   One processed frame as written, given what `detect_faces` returned: `zip`
   hands crop j to `ProcessFace` and draws the outcome at box j. `livenessOf`
   and `recognise` stand for the liveness check and `recognize_face` applied
   to a crop.
   */
  function ProcessDetections(dets: Option<Detection.Detections>, skip: bool, registering: bool, poseIndex: nat,
                             livenessOf: Detection.Crop -> bool,
                             recognise: Detection.Crop -> Recognition.Match)
    : (r: seq<(Detection.Box, FaceOutcome)>)
    requires dets.Some? ==> Parallel(dets.value)
    ensures dets.None? ==> r == []
    ensures dets.Some? ==>
              && |r| == |dets.value.faces| <= |dets.value.boxes|
              && forall j :: 0 <= j < |r| ==>
                   r[j].0 == dets.value.boxes[j]
                   && r[j].1 == ProcessFace(skip, registering, livenessOf(dets.value.faces[j]), poseIndex,
                                            recognise(dets.value.faces[j]))
  {
    match dets
    case None => []
    case Some(d) =>
      var ps := PairAsWritten(d);
      seq(|ps|, j requires 0 <= j < |ps| =>
        (ps[j].box, ProcessFace(skip, registering, livenessOf(ps[j].face), poseIndex, recognise(ps[j].face))))
  }

  /** The outcome of each box's crop, drawn at that box. */
  function Outcomes(boxes: seq<Detection.Box>, skip: bool, registering: bool, poseIndex: nat,
                    livenessOf: Detection.Crop -> bool,
                    recognise: Detection.Crop -> Recognition.Match)
    : (r: seq<(Detection.Box, FaceOutcome)>)
    ensures |r| == |boxes|
    ensures forall j :: 0 <= j < |r| ==> r[j].0 == boxes[j]
    ensures forall j :: 0 <= j < |r| ==>
              r[j].1 == ProcessFace(skip, registering, livenessOf(Detection.CropOf(boxes[j])), poseIndex,
                                    recognise(Detection.CropOf(boxes[j])))
  {
    seq(|boxes|, j requires 0 <= j < |boxes| =>
      var face := Detection.CropOf(boxes[j]);
      (boxes[j], ProcessFace(skip, registering, livenessOf(face), poseIndex, recognise(face))))
  }

  /**
   Corrected: every crop of a frame is judged and drawn at the box it was cut
   from.
   */
  function ProcessDetectionsByBox(dets: Option<Detection.Detections>, skip: bool, registering: bool,
                                  poseIndex: nat,
                                  livenessOf: Detection.Crop -> bool,
                                  recognise: Detection.Crop -> Recognition.Match)
    : (r: seq<(Detection.Box, FaceOutcome)>)
    requires dets.Some? ==> dets.value.faces == Detection.Crops(dets.value.boxes, 640, 480)
    ensures dets.None? ==> r == []
    ensures dets.Some? ==>
              && |r| == |dets.value.faces|
              && forall j :: 0 <= j < |r| ==>
                   && r[j].0 in dets.value.boxes && Detection.CropKept(r[j].0, 640, 480)
                   && Detection.CropOf(r[j].0) == dets.value.faces[j]
    ensures forall j :: 0 <= j < |r| ==>
              r[j].1 == ProcessFace(skip, registering, livenessOf(Detection.CropOf(r[j].0)), poseIndex,
                                    recognise(Detection.CropOf(r[j].0)))
  {
    match dets
    case None => []
    case Some(d) =>
      var cs := Detection.CroppedIndices(d.boxes, 640, 480);
      Outcomes(Detection.Select(d.boxes, cs), skip, registering, poseIndex, livenessOf, recognise)
  }

  /** When no box is skipped, the loop as written and the corrected loop agree. */
  lemma ProcessDetectionsAgree(raw: Detection.Raw, skip: bool, registering: bool, poseIndex: nat,
                               livenessOf: Detection.Crop -> bool,
                               recognise: Detection.Crop -> Recognition.Match)
    requires Detection.WellFormed(raw) && raw.Found? && raw.landmarks.Some?
    requires forall i :: 0 <= i < |raw.boxes| ==> Detection.CropKept(raw.boxes[i], 640, 480)
    ensures var d := Detection.DetectFaces(raw, 640, 480, Detection.MinConfidence);
            && (d.Some? ==> Parallel(d.value))
            && ProcessDetections(d, skip, registering, poseIndex, livenessOf, recognise)
               == ProcessDetectionsByBox(d, skip, registering, poseIndex, livenessOf, recognise)
  {
    PairByBoxAgreesWithoutSkips(raw, 640, 480, Detection.MinConfidence);
  }

  /**
   In the two-box example the loop as written judges the crop of the good
   box but draws, labels and logs it at the swapped box; the corrected loop
   draws it at the good box.
   */
  lemma ProcessedAtWrongBox(skip: bool, registering: bool, poseIndex: nat,
                            livenessOf: Detection.Crop -> bool,
                            recognise: Detection.Crop -> Recognition.Match)
    ensures Detection.WellFormed(TwoFaces)
    ensures var d := Detection.DetectFaces(TwoFaces, 640, 480, Detection.MinConfidence);
            d.Some? && Parallel(d.value)
    ensures var d := Detection.DetectFaces(TwoFaces, 640, 480, Detection.MinConfidence);
            var w := ProcessDetections(d, skip, registering, poseIndex, livenessOf, recognise);
            var c := ProcessDetectionsByBox(d, skip, registering, poseIndex, livenessOf, recognise);
            var face := Detection.Crop(200, 100, 320, 240);
            var o := ProcessFace(skip, registering, livenessOf(face), poseIndex, recognise(face));
            |w| == 1 && w[0] == (SwappedBox, o)
            && |c| == 1 && c[0] == (GoodBox, o)
  {
    ZipMisaligns();
    BothBoxesKept();
    OnlyGoodBoxCropped();
    assert GoodBox in [SwappedBox, GoodBox];
  }
}

=== FILE: detection.dfy ===
/**
 The filtering half of `FaceRecognizer.detect_faces`. The detector itself
 (MTCNN) is a foreign call whose boxes, probabilities and landmarks enter
 as data; the model decides which detections survive and which crops are
 cut. A crop is identified by the integer rectangle cut from the frame;
 resizing it to 160 x 160 is a foreign call and is not modelled.
 */
module Detection {
  import opened Wrappers

  const MinConfidence: real := 0.95

  datatype Box = Box(x1: real, y1: real, x2: real, y2: real)

  /** Five (x, y) points: eyes, nose, mouth corners. */
  type LandmarkSet = seq<(real, real)>

  /** What the detector returns: nothing, or parallel arrays. */
  datatype Raw =
    | NoFaces
    | Found(boxes: seq<Box>, probs: seq<real>, landmarks: Option<seq<LandmarkSet>>)

  predicate WellFormed(raw: Raw)
  {
    raw.Found? ==>
      |raw.probs| == |raw.boxes| && (raw.landmarks.Some? ==> |raw.landmarks.value| == |raw.boxes|)
  }

  /** The rectangle `image_rgb[y1:y2, x1:x2]`, before resizing. */
  datatype Crop = Crop(x1: int, y1: int, x2: int, y2: int)

  datatype Detections = Detections(
    faces: seq<Crop>, boxes: seq<Box>, probs: seq<real>, landmarks: Option<seq<LandmarkSet>>)

  /** Python's `int()` on a float: truncation toward zero. */
  function Trunc(x: real): (r: int)
    ensures 0.0 <= x ==> r as real <= x < r as real + 1.0
    ensures x < 0.0 ==> r as real - 1.0 < x <= r as real
  {
    if x >= 0.0 then x.Floor else -((-x).Floor)
  }

  /** The number of elements `a[start:stop]` selects from a sequence of length n. */
  function SliceLength(start: int, stop: int, n: nat): (r: nat)
    ensures r <= n
    ensures 0 <= start <= stop <= n ==> r == stop - start
    ensures stop <= start && (start >= 0) == (stop >= 0) ==> r == 0
  {
    var s := if start < 0 then (if start + n < 0 then 0 else start + n) else (if start > n then n else start);
    var e := if stop < 0 then (if stop + n < 0 then 0 else stop + n) else (if stop > n then n else stop);
    if e > s then e - s else 0
  }

  function CropOf(b: Box): Crop
  {
    Crop(Trunc(b.x1), Trunc(b.y1), Trunc(b.x2), Trunc(b.y2))
  }

  /**
   The two skips of the crop loop: a degenerate rectangle, and a slice that
   comes out empty (a box outside a `width` x `height` frame, or one whose
   negative coordinate Python counts from the far edge).
   */
  predicate CropKept(b: Box, width: nat, height: nat)
  {
    var c := CropOf(b);
    c.x2 > c.x1 && c.y2 > c.y1
    && SliceLength(c.y1, c.y2, height) > 0 && SliceLength(c.x1, c.x2, width) > 0
  }

  /**
   A box reaching past the left edge of the frame: `int(-5.4)` is -5, so the
   rectangle is not degenerate, but `frame[100:200, -5:40]` counts -5 from
   the right edge and comes out empty, and the crop loop skips the box.
   */
  lemma LeftEdgeBoxSkipped()
    ensures var c := CropOf(Box(-5.4, 100.0, 40.0, 200.0));
            c == Crop(-5, 100, 40, 200) && c.x2 > c.x1 && c.y2 > c.y1
    ensures SliceLength(-5, 40, 640) == 0
    ensures !CropKept(Box(-5.4, 100.0, 40.0, 200.0), 640, 480)
  {
    assert Trunc(-5.4) == -5;
  }

  predicate Increasing(ks: seq<nat>)
  {
    forall a, b :: 0 <= a < b < |ks| ==> ks[a] < ks[b]
  }

  /** The indices with `probs > MIN_CONFIDENCE`, in order. */
  function ConfidentIndices(probs: seq<real>, minConf: real): (ks: seq<nat>)
    ensures Increasing(ks)
    ensures forall j :: 0 <= j < |ks| ==> ks[j] < |probs| && probs[ks[j]] > minConf
    ensures forall i :: 0 <= i < |probs| && probs[i] > minConf ==> i in ks
  {
    if |probs| == 0 then []
    else
      var init := ConfidentIndices(probs[..|probs| - 1], minConf);
      var last := |probs| - 1;
      init + (if probs[last] > minConf then [last] else [])
  }

  lemma ConfidentNone(probs: seq<real>, minConf: real)
    ensures |ConfidentIndices(probs, minConf)| == 0 <==> forall i :: 0 <= i < |probs| ==> probs[i] <= minConf
  {
    var ks := ConfidentIndices(probs, minConf);
    if |ks| > 0 {
      assert probs[ks[0]] > minConf;
    }
  }

  lemma SelectedAreConfident(probs: seq<real>, minConf: real)
    ensures var ps := Select(probs, ConfidentIndices(probs, minConf));
            forall j :: 0 <= j < |ps| ==> ps[j] > minConf
  {
  }

  /** The indices of the boxes whose crop is cut, in order. */
  function CroppedIndices(boxes: seq<Box>, width: nat, height: nat): (ks: seq<nat>)
    ensures Increasing(ks)
    ensures forall j :: 0 <= j < |ks| ==> ks[j] < |boxes| && CropKept(boxes[ks[j]], width, height)
    ensures forall i :: 0 <= i < |boxes| && CropKept(boxes[i], width, height) ==> i in ks
    ensures |ks| <= |boxes|
  {
    if |boxes| == 0 then []
    else
      var init := CroppedIndices(boxes[..|boxes| - 1], width, height);
      var last := |boxes| - 1;
      init + (if CropKept(boxes[last], width, height) then [last] else [])
  }

  /** `xs[ks]` for an index array `ks`. */
  function Select<T>(xs: seq<T>, ks: seq<nat>): (r: seq<T>)
    requires forall j :: 0 <= j < |ks| ==> ks[j] < |xs|
    ensures |r| == |ks|
    ensures forall j :: 0 <= j < |ks| ==> r[j] == xs[ks[j]]
  {
    seq(|ks|, j requires 0 <= j < |ks| => xs[ks[j]])
  }

  /** The crop loop: one crop per box that survives the two skips, in box order. */
  function Crops(bs: seq<Box>, width: nat, height: nat): (faces: seq<Crop>)
    ensures var cs := CroppedIndices(bs, width, height);
            |faces| == |cs| && forall j :: 0 <= j < |cs| ==> faces[j] == CropOf(bs[cs[j]])
  {
    var cs := CroppedIndices(bs, width, height);
    seq(|cs|, j requires 0 <= j < |cs| => CropOf(bs[cs[j]]))
  }

  /**
   `detect_faces` on a `width` x `height` frame. `None` stands for the four
   `None`s returned when nothing is detected or nothing is confident enough.
   */
  function DetectFaces(raw: Raw, width: nat, height: nat, minConf: real): (r: Option<Detections>)
    requires WellFormed(raw)
    ensures raw.NoFaces? ==> r.None?
    ensures raw.Found? ==> (r.None? <==> forall i :: 0 <= i < |raw.probs| ==> raw.probs[i] <= minConf)
    ensures r.Some? ==>
              var ks := ConfidentIndices(raw.probs, minConf);
              && r.value.boxes == Select(raw.boxes, ks)
              && r.value.probs == Select(raw.probs, ks)
              && (forall j :: 0 <= j < |r.value.probs| ==> r.value.probs[j] > minConf)
              && (raw.landmarks.None? ==> r.value.landmarks.None?)
              && (raw.landmarks.Some? ==> r.value.landmarks == Some(Select(raw.landmarks.value, ks)))
    ensures r.Some? ==>
              var cs := CroppedIndices(r.value.boxes, width, height);
              && |r.value.faces| == |cs| <= |r.value.boxes|
              && forall j :: 0 <= j < |cs| ==> r.value.faces[j] == CropOf(r.value.boxes[cs[j]])
    ensures r.Some? ==> r.value.faces == Crops(r.value.boxes, width, height)
  {
    match raw
    case NoFaces => None
    case Found(boxes, probs, landmarks) =>
      var ks := ConfidentIndices(probs, minConf);
      ConfidentNone(probs, minConf);
      if |ks| == 0 then None
      else
        SelectedAreConfident(probs, minConf);
        Some(Keep(raw, ks, width, height))
  }

  /** The detections at indices `ks`, with their crops. */
  function Keep(raw: Raw, ks: seq<nat>, width: nat, height: nat): (d: Detections)
    requires WellFormed(raw) && raw.Found?
    requires forall j :: 0 <= j < |ks| ==> ks[j] < |raw.boxes|
    ensures d.boxes == Select(raw.boxes, ks) && d.probs == Select(raw.probs, ks)
    ensures raw.landmarks.None? ==> d.landmarks.None?
    ensures raw.landmarks.Some? ==> d.landmarks == Some(Select(raw.landmarks.value, ks))
    ensures d.faces == Crops(d.boxes, width, height)
  {
    var bs := Select(raw.boxes, ks);
    var lms := if raw.landmarks.Some? then Some(Select(raw.landmarks.value, ks)) else None;
    Detections(Crops(bs, width, height), bs, Select(raw.probs, ks), lms)
  }

  function Range(n: nat): (r: seq<nat>)
    ensures |r| == n
    ensures forall i :: 0 <= i < n ==> r[i] == i
  {
    seq(n, i requires 0 <= i < n => i)
  }

  /** When every box yields a crop, the crop indices are all the indices. */
  lemma {:induction false} AllCroppedIndices(boxes: seq<Box>, width: nat, height: nat)
    requires forall i :: 0 <= i < |boxes| ==> CropKept(boxes[i], width, height)
    ensures CroppedIndices(boxes, width, height) == Range(|boxes|)
  {
    if |boxes| > 0 {
      var init := boxes[..|boxes| - 1];
      assert forall i :: 0 <= i < |init| ==> init[i] == boxes[i];
      AllCroppedIndices(init, width, height);
      assert Range(|boxes| - 1) + [|boxes| - 1] == Range(|boxes|);
    }
  }

  /**
   With every box valid and inside the frame, every confident detection gets
   its own crop, at its own position.
   */
  lemma AllCropsKept(raw: Raw, width: nat, height: nat, minConf: real)
    requires WellFormed(raw) && raw.Found?
    requires forall i :: 0 <= i < |raw.boxes| ==> CropKept(raw.boxes[i], width, height)
    ensures var r := DetectFaces(raw, width, height, minConf);
            r.Some? ==> |r.value.faces| == |r.value.boxes|
                        && forall j :: 0 <= j < |r.value.faces| ==> r.value.faces[j] == CropOf(r.value.boxes[j])
  {
    var r := DetectFaces(raw, width, height, minConf);
    if r.Some? {
      var bs := r.value.boxes;
      var ks := ConfidentIndices(raw.probs, minConf);
      forall i | 0 <= i < |bs| ensures CropKept(bs[i], width, height) {
        assert bs[i] == raw.boxes[ks[i]];
      }
      AllCroppedIndices(bs, width, height);
    }
  }
}

=== FILE: fusion.dfy ===
/**
 The liveness fusion rule (`AntiSpoofing.check_liveness`): every enabled
 method whose input is present puts a sub-score into a score map keyed
 "texture", "blink", "motion", "depth"; the total is the mean of the map
 (0.5 when it is empty) and the face is real when the total reaches the
 threshold. The blink buffer is the only state, threaded through.
 */
module Fusion {
  import opened Wrappers
  import opened Stats
  import opened LocalBinaryPattern
  import opened Scorers
  import Blink

  /** The four toggles and the threshold read from the configuration. */
  datatype Config = Config(
    useTexture: bool, useBlink: bool, useMotion: bool, useDepth: bool, threshold: real)

  /** The shipped configuration: every method on, threshold 0.7. */
  const DefaultConfig := Config(true, true, true, true, 0.7)

  /** What the library computes from one face crop. */
  datatype Face = Face(
    shape: Shape,
    gray: Gray,
    highFreqRatio: real,
    edgeDensity: real,
    histVariance: real,
    depth: DepthMeasurements)

  predicate FaceNonNegative(f: Face)
  {
    f.highFreqRatio >= 0.0 && f.edgeDensity >= 0.0 && f.histVariance >= 0.0 && f.depth.gradientMean >= 0.0
  }

  datatype Verdict = Verdict(
    isReal: bool, totalScore: real, details: map<string, real>, history: Blink.History)

  /** Dictionary insertion order of the score map. */
  const KeyOrder: seq<string> := ["texture", "blink", "motion", "depth"]

  /** The values of `d` for the keys `ks` that it holds, in the order of `ks`. */
  function ValuesInOrder(d: map<string, real>, ks: seq<string>): seq<real>
  {
    if |ks| == 0 then []
    else (if ks[0] in d then [d[ks[0]]] else []) + ValuesInOrder(d, ks[1..])
  }

  /** `list(scores.values())`. */
  function ScoreValues(d: map<string, real>): seq<real>
  {
    ValuesInOrder(d, KeyOrder)
  }

  /** The mean of the score map, or the neutral 0.5 when it is empty. */
  function Total(d: map<string, real>): real
  {
    var vs := ScoreValues(d);
    if |vs| > 0 then Mean(vs) else 0.5
  }

  function BlinkScore(detected: bool): real
  {
    if detected then 1.0 else 0.3
  }

  /** The crop must be large enough for the LBP grid whenever texture is on. */
  predicate Ready(cfg: Config, face: Face)
  {
    cfg.useTexture ==> TextureDefined(face.gray)
  }

  /**
   The score map of one call: a key per enabled method whose input is
   present, `blink` carrying the already computed blink sub-score.
   */
  function Scores(cfg: Config, face: Face, blink: Option<real>, prev: Option<Shape>, flow: FlowStats)
    : (d: map<string, real>)
    requires Ready(cfg, face)
    ensures d.Keys <= {"texture", "blink", "motion", "depth"}
    ensures "texture" in d <==> cfg.useTexture
    ensures "texture" in d ==>
              d["texture"] == TextureAnalysis(face.gray, face.highFreqRatio, face.edgeDensity, face.histVariance)
    ensures "blink" in d <==> blink.Some?
    ensures "blink" in d ==> d["blink"] == blink.value
    ensures "motion" in d <==> cfg.useMotion && prev.Some?
    ensures "motion" in d ==> d["motion"] == MotionAnalysis(face.shape, prev, flow)
    ensures "depth" in d <==> cfg.useDepth
    ensures "depth" in d ==> d["depth"] == DepthScore(face.depth)
  {
    var s0: map<string, real> := map[];
    var s1 := if cfg.useTexture
              then s0["texture" := TextureAnalysis(face.gray, face.highFreqRatio, face.edgeDensity, face.histVariance)]
              else s0;
    var s2 := if blink.Some? then s1["blink" := blink.value] else s1;
    var s3 := if cfg.useMotion && prev.Some? then s2["motion" := MotionAnalysis(face.shape, prev, flow)] else s2;
    if cfg.useDepth then s3["depth" := DepthScore(face.depth)] else s3
  }

  function CheckLiveness(cfg: Config, history: Blink.History, face: Face,
                         eyeDistance: Option<real>, prev: Option<Shape>, flow: FlowStats): (v: Verdict)
    requires Ready(cfg, face)
    ensures v.details.Keys <= {"texture", "blink", "motion", "depth"}
    ensures "texture" in v.details <==> cfg.useTexture
    ensures "texture" in v.details ==>
              v.details["texture"] == TextureAnalysis(face.gray, face.highFreqRatio, face.edgeDensity, face.histVariance)
    ensures "blink" in v.details <==> cfg.useBlink && eyeDistance.Some?
    ensures "blink" in v.details ==>
              v.history == Blink.Push(history, eyeDistance.value)
              && v.details["blink"] == (if Blink.Detects(v.history) then 1.0 else 0.3)
    ensures "blink" !in v.details ==> v.history == history
    ensures "motion" in v.details <==> cfg.useMotion && prev.Some?
    ensures "motion" in v.details ==> v.details["motion"] == MotionAnalysis(face.shape, prev, flow)
    ensures "depth" in v.details <==> cfg.useDepth
    ensures "depth" in v.details ==> v.details["depth"] == DepthScore(face.depth)
    ensures v.details == map[] ==> v.totalScore == 0.5
    ensures v.details != map[] ==> |ScoreValues(v.details)| > 0 && v.totalScore == Mean(ScoreValues(v.details))
    ensures v.isReal <==> v.totalScore >= cfg.threshold
  {
    var blinking := cfg.useBlink && eyeDistance.Some?;
    var b := if blinking then Blink.DetectBlink(history, eyeDistance) else Blink.BlinkResult(history, false, false);
    var d := Scores(cfg, face, if blinking then Some(BlinkScore(b.blinkDetected)) else None, prev, flow);
    var total := Total(d);
    ScoreValuesEmpty(d);
    Verdict(total >= cfg.threshold, total, d, b.history)
  }

  // ------------------------------------------------------------ properties

  lemma {:induction false} ValuesInOrderConcat(d: map<string, real>, a: seq<string>, b: seq<string>)
    ensures ValuesInOrder(d, a + b) == ValuesInOrder(d, a) + ValuesInOrder(d, b)
  {
    if |a| == 0 {
      assert a + b == b;
    } else {
      assert (a + b)[0] == a[0];
      assert (a + b)[1..] == a[1..] + b;
      ValuesInOrderConcat(d, a[1..], b);
      assert ValuesInOrder(d, a + b) == Opt(d, a[0]) + ValuesInOrder(d, a[1..] + b);
      assert ValuesInOrder(d, a) == Opt(d, a[0]) + ValuesInOrder(d, a[1..]);
    }
  }

  /** Taking key k out of the list takes exactly its value (if any) out of the values. */
  lemma ValuesRemove(d: map<string, real>, b: seq<string>, k: nat)
    requires k < |b|
    ensures multiset(ValuesInOrder(d, b))
            == multiset(Opt(d, b[k])) + multiset(ValuesInOrder(d, b[..k] + b[k + 1..]))
  {
    assert b == b[..k] + ([b[k]] + b[k + 1..]);
    ValuesInOrderConcat(d, b[..k], [b[k]] + b[k + 1..]);
    ValuesInOrderConcat(d, [b[k]], b[k + 1..]);
    ValuesInOrderConcat(d, b[..k], b[k + 1..]);
    assert ValuesInOrder(d, [b[k]]) == Opt(d, b[k]);
  }

  /** Listing the keys in another order permutes the values and nothing else. */
  lemma {:induction false} ValuesPermutation(d: map<string, real>, a: seq<string>, b: seq<string>)
    requires multiset(a) == multiset(b)
    ensures multiset(ValuesInOrder(d, a)) == multiset(ValuesInOrder(d, b))
    decreases |a|
  {
    if |a| == 0 {
      assert |b| == |multiset(b)| == 0;
    } else {
      var k := HeadIn(a, b);
      var rest := b[..k] + b[k + 1..];
      PermutationTail(a, b, k);
      ValuesPermutation(d, a[1..], rest);
      assert ValuesInOrder(d, a) == Opt(d, a[0]) + ValuesInOrder(d, a[1..]);
      ValuesRemove(d, b, k);
    }
  }

  /** The fused total does not depend on the order in which methods are consulted. */
  lemma TotalOrderIndependent(d: map<string, real>, order: seq<string>)
    requires multiset(order) == multiset(KeyOrder)
    requires |ScoreValues(d)| > 0
    ensures |ValuesInOrder(d, order)| > 0
    ensures Mean(ValuesInOrder(d, order)) == Total(d)
  {
    ValuesPermutation(d, KeyOrder, order);
    MeanPermutation(ScoreValues(d), ValuesInOrder(d, order));
  }

  lemma {:induction false} ValuesInOrderBounds(d: map<string, real>, ks: seq<string>, lo: real, hi: real)
    requires forall k :: k in d ==> lo <= d[k] <= hi
    ensures AllIn(ValuesInOrder(d, ks), lo, hi)
  {
    if |ks| > 0 {
      ValuesInOrderBounds(d, ks[1..], lo, hi);
    }
  }

  /** A score map whose values all lie in [0, 1] fuses to a total in [0, 1]. */
  lemma TotalInUnit(d: map<string, real>)
    requires forall k :: k in d ==> 0.0 <= d[k] <= 1.0
    ensures 0.0 <= Total(d) <= 1.0
  {
    ValuesInOrderBounds(d, KeyOrder, 0.0, 1.0);
    if |ScoreValues(d)| > 0 {
      MeanBounds(ScoreValues(d), 0.0, 1.0);
    }
  }

  function Opt(d: map<string, real>, k: string): seq<real>
  {
    if k in d then [d[k]] else []
  }

  /** The score values, spelt out key by key. */
  lemma ScoreValuesUnfold(d: map<string, real>)
    ensures ScoreValues(d) == Opt(d, "texture") + Opt(d, "blink") + Opt(d, "motion") + Opt(d, "depth")
  {
    var ks := KeyOrder;
    assert ks[1..][1..][1..][1..] == [];
    assert ValuesInOrder(d, ks[3..]) == Opt(d, "depth");
    assert ValuesInOrder(d, ks[2..]) == Opt(d, "motion") + ValuesInOrder(d, ks[3..]);
    assert ValuesInOrder(d, ks[1..]) == Opt(d, "blink") + ValuesInOrder(d, ks[2..]);
  }

  /** The list of values is empty exactly when the map is. */
  lemma ScoreValuesEmpty(d: map<string, real>)
    requires d.Keys <= {"texture", "blink", "motion", "depth"}
    ensures |ScoreValues(d)| > 0 <==> d != map[]
  {
    ScoreValuesUnfold(d);
    if d != map[] {
      var k :| k in d;
      assert k == "texture" || k == "blink" || k == "motion" || k == "depth";
    }
  }

  /**
   With non-negative measurements every sub-score is in [0, 1], so the total
   is too; the total is the mean of the map, or 0.5 when it is empty.
   */
  lemma CheckLivenessTotalInUnit(cfg: Config, history: Blink.History, face: Face,
                                 eyeDistance: Option<real>, prev: Option<Shape>, flow: FlowStats)
    requires Ready(cfg, face)
    requires FaceNonNegative(face) && FlowNonNegative(flow)
    ensures var v := CheckLiveness(cfg, history, face, eyeDistance, prev, flow);
            (forall k :: k in v.details ==> 0.0 <= v.details[k] <= 1.0)
            && 0.0 <= v.totalScore <= 1.0
  {
    var v := CheckLiveness(cfg, history, face, eyeDistance, prev, flow);
    assert v.totalScore == Total(v.details);
    TotalInUnit(v.details);
  }

  /** With every method off, the verdict is the neutral 0.5 against the threshold. */
  lemma AllDisabledIsNeutral(cfg: Config, history: Blink.History, face: Face,
                             eyeDistance: Option<real>, prev: Option<Shape>, flow: FlowStats)
    requires !cfg.useTexture && !cfg.useBlink && !cfg.useMotion && !cfg.useDepth
    ensures var v := CheckLiveness(cfg, history, face, eyeDistance, prev, flow);
            v.details == map[] && v.totalScore == 0.5 && (v.isReal <==> 0.5 >= cfg.threshold)
            && v.history == history
  {
  }

  /**
   A uniformly grey crop (no LBP variance, no high frequencies, no edges, no
   gradient) with texture and depth as the only evidence is judged fake at the
   shipped threshold, whatever the histogram, Otsu and contour measurements.
   */
  lemma UniformCropIsFake(history: Blink.History, face: Face, flow: FlowStats)
    requires TextureDefined(face.gray) && Uniform(face.gray)
    requires face.highFreqRatio == 0.0 && face.edgeDensity == 0.0 && face.depth.gradientMean == 0.0
    ensures !CheckLiveness(DefaultConfig, history, face, None, None, flow).isReal
  {
    var v := CheckLiveness(DefaultConfig, history, face, None, None, flow);
    FlatTexture(face.gray, face.histVariance);
    FlatDepth(face.depth);
    ScoreValuesUnfold(v.details);
    var t, dp := v.details["texture"], v.details["depth"];
    assert ScoreValues(v.details) == [t, dp];
    assert t <= 0.25 && dp <= 0.6;
    assert Sum([t, dp]) == t + dp by {
      assert [t, dp][1..] == [dp];
      assert [dp][1..] == [];
      assert Sum([dp]) == dp + Sum([]);
    }
    assert v.totalScore == (t + dp) / 2.0;
  }

  /** A score map holding only the motion score averages to that score. */
  lemma MotionOnlyMean(d: map<string, real>)
    requires "motion" in d && "texture" !in d && "blink" !in d && "depth" !in d
    ensures |ScoreValues(d)| > 0 && Mean(ScoreValues(d)) == d["motion"]
  {
    var m := d["motion"];
    ScoreValuesUnfold(d);
    assert ScoreValues(d) == [m];
    assert Sum([m]) == m + Sum([]);
  }

  /**
   Two identical consecutive frames (no flow) with motion as the only method
   score at most 0.3 and are judged fake at the shipped threshold.
   */
  lemma StillFramesAreFake(history: Blink.History, face: Face, flow: FlowStats)
    requires flow.magnitudeVariance == 0.0 && flow.magnitudeMean == 0.0
    ensures var cfg := Config(false, false, true, false, 0.7);
            var v := CheckLiveness(cfg, history, face, None, Some(face.shape), flow);
            v.totalScore <= 0.3 && !v.isReal
  {
    var cfg := Config(false, false, true, false, 0.7);
    var v := CheckLiveness(cfg, history, face, None, Some(face.shape), flow);
    StillSceneMotion(face.shape, flow);
    MotionOnlyMean(v.details);
  }
}

=== FILE: lbp.dfy ===
/**
 The 8-neighbour local binary pattern of a grey-level image
 (`AntiSpoofing._compute_lbp`). Every interior pixel gets an 8-bit code;
 bit 7 down to bit 0 record whether the neighbour NW, N, NE, E, SE, S, SW, W
 (clockwise from the top-left) is strictly brighter than the centre.
 */
module LocalBinaryPattern {

  /** A grey-level image, row-major. */
  type Gray = seq<seq<int>>

  predicate Rectangular(img: Gray)
  {
    |img| > 0 && forall r :: 0 <= r < |img| ==> |img[r]| == |img[0]|
  }

  /** numpy refuses the negative output shape of an image narrower or shorter than 2. */
  predicate LbpDefined(img: Gray)
  {
    Rectangular(img) && |img| >= 2 && |img[0]| >= 2
  }

  predicate Interior(img: Gray, i: int, j: int)
  {
    LbpDefined(img) && 1 <= i < |img| - 1 && 1 <= j < |img[0]| - 1
  }

  /** The eight neighbours of (i, j), clockwise from the top-left. */
  function Neighbours(img: Gray, i: int, j: int): (n: seq<int>)
    requires Interior(img, i, j)
    ensures |n| == 8
  {
    [img[i - 1][j - 1], img[i - 1][j], img[i - 1][j + 1], img[i][j + 1],
     img[i + 1][j + 1], img[i + 1][j], img[i + 1][j - 1], img[i][j - 1]]
  }

  /** Bit b of a non-negative integer. */
  function TestBit(code: nat, b: nat): bool
  {
    if b == 0 then code % 2 == 1 else TestBit(code / 2, b - 1)
  }

  function Pow2(n: nat): (r: nat)
    ensures r >= 1
  {
    if n == 0 then 1 else 2 * Pow2(n - 1)
  }

  /** Packs bits most-significant first: bs[0] becomes bit |bs|-1. */
  function PackBits(bs: seq<bool>): nat
  {
    if |bs| == 0 then 0
    else 2 * PackBits(bs[..|bs| - 1]) + (if bs[|bs| - 1] then 1 else 0)
  }

  lemma {:induction false} PackBitsRange(bs: seq<bool>)
    ensures PackBits(bs) < Pow2(|bs|)
  {
    if |bs| > 0 {
      PackBitsRange(bs[..|bs| - 1]);
    }
  }

  /** The low bit of `2p + b`, and what is left above it. */
  lemma LowBit(p: nat, b: nat)
    requires b <= 1
    ensures (2 * p + b) % 2 == b && (2 * p + b) / 2 == p
  {
  }

  /** Bit |bs|-1-k of the packed code is exactly bs[k]. */
  lemma {:induction false} PackBitsBit(bs: seq<bool>, k: nat)
    requires k < |bs|
    ensures TestBit(PackBits(bs), |bs| - 1 - k) == bs[k]
  {
    var init := bs[..|bs| - 1];
    var b := if bs[|bs| - 1] then 1 else 0;
    var c := PackBits(bs);
    assert c == 2 * PackBits(init) + b;
    LowBit(PackBits(init), b);
    if k < |bs| - 1 {
      assert TestBit(c, |bs| - 1 - k) == TestBit(c / 2, |init| - 1 - k);
      PackBitsBit(init, k);
      assert init[k] == bs[k];
    }
  }

  lemma {:induction false} PackBitsNone(bs: seq<bool>)
    requires forall k :: 0 <= k < |bs| ==> !bs[k]
    ensures PackBits(bs) == 0
  {
    if |bs| > 0 {
      PackBitsNone(bs[..|bs| - 1]);
    }
  }

  function NeighbourBits(img: Gray, i: int, j: int): (bs: seq<bool>)
    requires Interior(img, i, j)
    ensures |bs| == 8
    ensures forall k :: 0 <= k < 8 ==> bs[k] == (Neighbours(img, i, j)[k] > img[i][j])
  {
    var n := Neighbours(img, i, j);
    seq(8, k requires 0 <= k < 8 => n[k] > img[i][j])
  }

  /** `c` carries bit 7-k exactly when neighbour k is strictly brighter than the centre. */
  predicate CodeMatches(img: Gray, i: int, j: int, c: nat)
    requires Interior(img, i, j)
  {
    forall k :: 0 <= k < 8 ==> (TestBit(c, 7 - k) <==> Neighbours(img, i, j)[k] > img[i][j])
  }

  /** The code of one interior pixel. */
  function Code(img: Gray, i: int, j: int): (c: nat)
    requires Interior(img, i, j)
    ensures c <= 255
    ensures CodeMatches(img, i, j, c)
  {
    var bs := NeighbourBits(img, i, j);
    PackBitsRange(bs);
    assert Pow2(8) == 256;
    forall k | 0 <= k < 8
      ensures TestBit(PackBits(bs), 7 - k) == bs[k]
    {
      PackBitsBit(bs, k);
    }
    PackBits(bs)
  }

  function LbpRow(img: Gray, i: int): (row: seq<int>)
    requires LbpDefined(img) && 1 <= i < |img| - 1
    ensures |row| == |img[0]| - 2
    ensures forall b :: 0 <= b < |row| ==> row[b] == Code(img, i, b + 1)
  {
    seq(|img[0]| - 2, b requires 0 <= b < |img[0]| - 2 => Code(img, i, b + 1))
  }

  /**
   The code grid: (rows-2) x (cols-2), entry [a][b] for pixel (a+1, b+1),
   each an 8-bit value whose bits are the neighbour comparisons.
   */
  function Lbp(img: Gray): (r: seq<seq<int>>)
    requires LbpDefined(img)
    ensures |r| == |img| - 2
    ensures forall a :: 0 <= a < |r| ==> |r[a]| == |img[0]| - 2
    ensures forall a, b :: 0 <= a < |r| && 0 <= b < |r[a]| ==>
              0 <= r[a][b] <= 255 && CodeMatches(img, a + 1, b + 1, r[a][b])
  {
    seq(|img| - 2, a requires 0 <= a < |img| - 2 => LbpRow(img, a + 1))
  }

  predicate Uniform(img: Gray)
  {
    Rectangular(img) && forall r, c :: 0 <= r < |img| && 0 <= c < |img[r]| ==> img[r][c] == img[0][0]
  }

  /** A flat image has no neighbour strictly brighter than any centre: every code is 0. */
  lemma UniformLbpZero(img: Gray)
    requires LbpDefined(img) && Uniform(img)
    ensures forall a, b :: 0 <= a < |Lbp(img)| && 0 <= b < |Lbp(img)[a]| ==> Lbp(img)[a][b] == 0
  {
    var r := Lbp(img);
    forall a, b | 0 <= a < |r| && 0 <= b < |r[a]|
      ensures r[a][b] == 0
    {
      var bs := NeighbourBits(img, a + 1, b + 1);
      PackBitsNone(bs);
    }
  }

  /** Appending bit k of eight shifts it into position 7-k. */
  lemma PackStep(bs: seq<bool>, k: nat)
    requires k < |bs| == 8
    ensures PackBits(bs[..k + 1]) * Pow2(7 - k) == PackBits(bs[..k]) * Pow2(8 - k) + (if bs[k] then Pow2(7 - k) else 0)
  {
    assert bs[..k + 1][..k] == bs[..k];
    var p, q := PackBits(bs[..k]), Pow2(7 - k);
    assert Pow2(8 - k) == 2 * q;
    assert PackBits(bs[..k + 1]) == 2 * p + (if bs[k] then 1 else 0);
    ShiftIn(p, q, bs[k]);
  }

  lemma ShiftIn(p: int, q: int, bit: bool)
    ensures (2 * p + (if bit then 1 else 0)) * q == p * (2 * q) + (if bit then q else 0)
  {
    assert (2 * p + (if bit then 1 else 0)) * q == 2 * p * q + (if bit then 1 else 0) * q;
  }

  /**
   One pixel's code: the comparison with neighbour k is OR-ed in at bit 7-k.
   That bit is still clear when it is set, so the OR is an addition.
   */
  method PixelCode(img: Gray, i: int, j: int) returns (code: int)
    requires Interior(img, i, j)
    ensures code == Code(img, i, j)
  {
    var center := img[i][j];
    var n := Neighbours(img, i, j);
    ghost var bs := NeighbourBits(img, i, j);
    code := 0;
    var k := 0;
    while k < 8
      invariant 0 <= k <= 8
      invariant code == PackBits(bs[..k]) * Pow2(8 - k)
    {
      PackStep(bs, k);
      code := code + (if n[k] > center then Pow2(7 - k) else 0);
      k := k + 1;
    }
    assert bs[..8] == bs;
  }

  /** The nested loops of the source, row by row. */
  method ComputeLbp(img: Gray) returns (lbp: seq<seq<int>>)
    requires LbpDefined(img)
    ensures lbp == Lbp(img)
  {
    var rows, cols := |img|, |img[0]|;
    lbp := [];
    var i := 1;
    while i < rows - 1
      invariant 1 <= i <= rows - 1
      invariant |lbp| == i - 1
      invariant forall a :: 0 <= a < i - 1 ==> lbp[a] == LbpRow(img, a + 1)
    {
      var row: seq<int> := [];
      var j := 1;
      while j < cols - 1
        invariant 1 <= j <= cols - 1
        invariant |row| == j - 1
        invariant forall b :: 0 <= b < j - 1 ==> row[b] == Code(img, i, b + 1)
      {
        var code := PixelCode(img, i, j);
        row := row + [code];
        j := j + 1;
      }
      assert row == LbpRow(img, i);
      lbp := lbp + [row];
      i := i + 1;
    }
  }
}

=== FILE: ordered_dict.dfy ===
/**
 Python's `dict` keeps its keys in insertion order, and `recognize_face`
 breaks distance ties by that order. A dictionary is therefore modelled as
 a sequence of key/value pairs with distinct keys: assigning an existing key
 updates it in place, assigning a new key appends it, `del` removes it.
 */
module OrderedDict {
  import opened Wrappers

  /** Keys are employee ids. */
  type Key = string

  datatype Dict<V> = Dict(entries: seq<(Key, V)>)

  function Empty<V>(): Dict<V>
  {
    Dict([])
  }

  function KeysOf<V>(e: seq<(Key, V)>): (r: seq<Key>)
    ensures |r| == |e|
    ensures forall i :: 0 <= i < |e| ==> r[i] == e[i].0
  {
    if |e| == 0 then [] else [e[0].0] + KeysOf(e[1..])
  }

  /** No key occurs twice. */
  predicate Valid<V>(d: Dict<V>)
  {
    forall i, j :: 0 <= i < j < |d.entries| ==> d.entries[i].0 != d.entries[j].0
  }

  function Keys<V>(d: Dict<V>): seq<Key>
  {
    KeysOf(d.entries)
  }

  predicate Has<V>(d: Dict<V>, k: Key)
  {
    exists i :: 0 <= i < |d.entries| && d.entries[i].0 == k
  }

  /** The value stored under `k`: the first matching entry. */
  function Find<V>(e: seq<(Key, V)>, k: Key): (r: Option<V>)
    ensures r.None? <==> forall i :: 0 <= i < |e| ==> e[i].0 != k
    ensures r.Some? ==> exists i :: 0 <= i < |e| && e[i] == (k, r.value)
  {
    if |e| == 0 then None
    else if e[0].0 == k then Some(e[0].1)
    else
      var r := Find(e[1..], k);
      assert forall i :: 0 <= i < |e[1..]| ==> e[1..][i] == e[i + 1];
      r
  }

  function Get<V>(d: Dict<V>, k: Key): Option<V>
  {
    Find(d.entries, k)
  }

  /** Under distinct keys, the entry at index i is the one `Get` finds. */
  lemma GetAt<V>(d: Dict<V>, i: nat)
    requires Valid(d)
    requires i < |d.entries|
    ensures Get(d, d.entries[i].0) == Some(d.entries[i].1)
  {
    var k := d.entries[i].0;
    var r := Get(d, k);
    var j :| 0 <= j < |d.entries| && d.entries[j] == (k, r.value);
    assert j == i;
  }

  /** Replaces the value of the first entry with key `k`, or appends `(k, v)`. */
  function Assign<V>(e: seq<(Key, V)>, k: Key, v: V): (r: seq<(Key, V)>)
    ensures |r| == |e| || |r| == |e| + 1
  {
    if |e| == 0 then [(k, v)]
    else if e[0].0 == k then [(k, v)] + e[1..]
    else [e[0]] + Assign(e[1..], k, v)
  }

  lemma {:induction false} AssignFinds<V>(e: seq<(Key, V)>, k: Key, v: V)
    ensures Find(Assign(e, k, v), k) == Some(v)
    ensures forall j :: j != k ==> Find(Assign(e, k, v), j) == Find(e, j)
  {
    var r := Assign(e, k, v);
    if |e| > 0 {
      assert r[1..] == if e[0].0 == k then e[1..] else Assign(e[1..], k, v);
      if e[0].0 != k {
        AssignFinds(e[1..], k, v);
      }
    }
  }

  lemma {:induction false} AssignKeys<V>(e: seq<(Key, V)>, k: Key, v: V)
    ensures KeysOf(Assign(e, k, v)) == if Find(e, k).Some? then KeysOf(e) else KeysOf(e) + [k]
  {
    var r := Assign(e, k, v);
    if |e| > 0 {
      assert r[1..] == if e[0].0 == k then e[1..] else Assign(e[1..], k, v);
      if e[0].0 != k {
        AssignKeys(e[1..], k, v);
        assert KeysOf(r) == [e[0].0] + KeysOf(r[1..]);
        assert KeysOf(e) == [e[0].0] + KeysOf(e[1..]);
      }
    }
  }

  /** `d[k] = v`. */
  function Set<V>(d: Dict<V>, k: Key, v: V): (r: Dict<V>)
    requires Valid(d)
    ensures Valid(r)
    ensures Get(r, k) == Some(v)
    ensures forall j :: j != k ==> Get(r, j) == Get(d, j)
    ensures Keys(r) == if Has(d, k) then Keys(d) else Keys(d) + [k]
  {
    AssignFinds(d.entries, k, v);
    AssignKeys(d.entries, k, v);
    AssignValid(d.entries, k, v);
    Dict(Assign(d.entries, k, v))
  }

  lemma TailValid<V>(e: seq<(Key, V)>)
    requires |e| > 0 && Valid(Dict(e))
    ensures Valid(Dict(e[1..]))
    ensures Find(e[1..], e[0].0) == None
  {
    forall i, j | 0 <= i < j < |e[1..]| ensures e[1..][i].0 != e[1..][j].0 {
      assert e[1..][i] == e[i + 1] && e[1..][j] == e[j + 1];
    }
    forall i | 0 <= i < |e[1..]| ensures e[1..][i].0 != e[0].0 {
      assert e[1..][i] == e[i + 1];
    }
  }

  /** Prepending an entry whose key the rest lacks keeps keys distinct. */
  lemma ConsValid<V>(p: (Key, V), rest: seq<(Key, V)>)
    requires Valid(Dict(rest)) && Find(rest, p.0) == None
    ensures Valid(Dict([p] + rest))
  {
    var r := [p] + rest;
    forall i, j | 0 <= i < j < |r| ensures r[i].0 != r[j].0 {
      if i == 0 {
        assert r[j] == rest[j - 1];
      } else {
        assert r[i] == rest[i - 1] && r[j] == rest[j - 1];
      }
    }
  }

  lemma {:induction false} AssignValid<V>(e: seq<(Key, V)>, k: Key, v: V)
    requires Valid(Dict(e))
    ensures Valid(Dict(Assign(e, k, v)))
  {
    if |e| > 0 {
      TailValid(e);
      if e[0].0 == k {
        ConsValid((k, v), e[1..]);
      } else {
        AssignValid(e[1..], k, v);
        AssignFinds(e[1..], k, v);
        ConsValid(e[0], Assign(e[1..], k, v));
      }
    }
  }

  function Drop<V>(e: seq<(Key, V)>, k: Key): (r: seq<(Key, V)>)
    ensures Find(r, k) == None
    ensures forall j :: j != k ==> Find(r, j) == Find(e, j)
    ensures forall i :: 0 <= i < |e| ==> e[i].0 != k ==> e[i] in r
    ensures forall p :: p in r ==> p in e
  {
    if |e| == 0 then []
    else if e[0].0 == k then Drop(e[1..], k)
    else
      var rest := Drop(e[1..], k);
      assert ([e[0]] + rest)[1..] == rest;
      assert forall i :: 1 <= i < |e| ==> e[i] == e[1..][i - 1];
      [e[0]] + rest
  }

  /** The keys `ks` without `k`, in their order. */
  function Without(ks: seq<Key>, k: Key): (r: seq<Key>)
    ensures forall j :: j in r <==> j in ks && j != k
  {
    if |ks| == 0 then [] else (if ks[0] == k then [] else [ks[0]]) + Without(ks[1..], k)
  }

  lemma {:induction false} DropKeys<V>(e: seq<(Key, V)>, k: Key)
    ensures KeysOf(Drop(e, k)) == Without(KeysOf(e), k)
  {
    if |e| > 0 {
      DropKeys(e[1..], k);
      assert KeysOf(e)[1..] == KeysOf(e[1..]);
      if e[0].0 != k {
        var rest := Drop(e[1..], k);
        assert KeysOf([e[0]] + rest) == [e[0].0] + KeysOf(rest);
      }
    }
  }

  /** `if k in d: del d[k]`: the other keys keep their insertion order. */
  function Remove<V>(d: Dict<V>, k: Key): (r: Dict<V>)
    requires Valid(d)
    ensures Valid(r)
    ensures Get(r, k) == None
    ensures forall j :: j != k ==> Get(r, j) == Get(d, j)
    ensures Keys(r) == Without(Keys(d), k)
    ensures !Has(d, k) ==> r == d
  {
    var r := Dict(Drop(d.entries, k));
    DropValid(d.entries, k);
    DropKeys(d.entries, k);
    if !Has(d, k) then
      DropAbsent(d.entries, k);
      r
    else r
  }

  lemma {:induction false} DropAbsent<V>(e: seq<(Key, V)>, k: Key)
    requires forall i :: 0 <= i < |e| ==> e[i].0 != k
    ensures Drop(e, k) == e
  {
    if |e| > 0 {
      DropAbsent(e[1..], k);
    }
  }

  lemma {:induction false} DropValid<V>(e: seq<(Key, V)>, k: Key)
    requires Valid(Dict(e))
    ensures Valid(Dict(Drop(e, k)))
  {
    if |e| > 0 {
      TailValid(e);
      DropValid(e[1..], k);
      if e[0].0 != k {
        ConsValid(e[0], Drop(e[1..], k));
      }
    }
  }
}

=== FILE: recognition.dfy ===
/**
 The in-memory gallery of `FaceRecognizer`: two insertion-ordered
 dictionaries from employee id to averaged embedding and to name, and the
 nearest-neighbour decision of `recognize_face`. Embeddings come from the
 FaceNet network and distances from numpy's norm; both are foreign, so
 embeddings are opaque vectors and the distance to the query is a function
 supplied by the caller.
 */
module Recognition {
  import opened Wrappers
  import Stats
  import D = OrderedDict

  const RecognitionThreshold: real := 0.6
  const UnknownName: string := "Unknown"

  type Embedding = seq<real>

  datatype Gallery = Gallery(embeddings: D.Dict<Embedding>, names: D.Dict<string>)

  predicate Valid(g: Gallery)
  {
    D.Valid(g.embeddings) && D.Valid(g.names)
  }

  /** The gallery of a freshly constructed recognizer, and after `clear_memory`. */
  function ClearMemory(): (g: Gallery)
    ensures Valid(g)
    ensures forall k :: D.Get(g.embeddings, k).None? && D.Get(g.names, k).None?
  {
    Gallery(D.Empty(), D.Empty())
  }

  // ------------------------------------------------------------ recognition

  datatype Match = Match(id: Option<D.Key>, name: string, distance: real)

  /** Entry k is at least as near as every entry and strictly nearer than every earlier one. */
  predicate FirstNearest(e: seq<(D.Key, Embedding)>, dist: Embedding -> real, k: nat)
  {
    && k < |e|
    && (forall j :: 0 <= j < |e| ==> dist(e[k].1) <= dist(e[j].1))
    && (forall j :: 0 <= j < k ==> dist(e[j].1) > dist(e[k].1))
  }

  /**
   The scan of `recognize_face`: starting from an infinite minimum, keep an
   entry whenever its distance is strictly smaller than the best so far.
   */
  method Nearest(e: seq<(D.Key, Embedding)>, dist: Embedding -> real) returns (k: nat, minDistance: real)
    requires |e| > 0
    ensures FirstNearest(e, dist, k)
    ensures minDistance == dist(e[k].1)
  {
    k, minDistance := 0, dist(e[0].1);  // the first entry always beats float('inf')
    var i := 1;
    while i < |e|
      invariant 1 <= i <= |e|
      invariant k < i && minDistance == dist(e[k].1)
      invariant forall j :: 0 <= j < i ==> minDistance <= dist(e[j].1)
      invariant forall j :: 0 <= j < k ==> dist(e[j].1) > minDistance
    {
      var d := dist(e[i].1);
      if d < minDistance {
        k, minDistance := i, d;
      }
      i := i + 1;
    }
  }

  /**
   `recognize_face`: `dist(v)` is the distance from the query embedding to
   a stored embedding `v`. The nearest entry (the first one on ties) is
   reported only when its distance is strictly below the configured 0.6.
   */
  method RecognizeFace(g: Gallery, dist: Embedding -> real) returns (m: Match)
    ensures |g.embeddings.entries| == 0 ==> m == Match(None, UnknownName, 1.0)
    ensures |g.embeddings.entries| > 0 ==>
              exists k: nat :: FirstNearest(g.embeddings.entries, dist, k)
                && m.distance == dist(g.embeddings.entries[k].1)
                && (m.id.Some? ==> m.id.value == g.embeddings.entries[k].0)
    ensures |g.embeddings.entries| > 0 ==> (m.id.Some? <==> m.distance < RecognitionThreshold)
    ensures m.id.Some? ==> m.name == D.Get(g.names, m.id.value).GetOr(UnknownName)
    ensures m.id.None? ==> m.name == UnknownName
  {
    var e := g.embeddings.entries;
    if |e| == 0 {
      return Match(None, UnknownName, 1.0);
    }
    var k, minDistance := Nearest(e, dist);
    if minDistance < RecognitionThreshold {
      m := Match(Some(e[k].0), D.Get(g.names, e[k].0).GetOr(UnknownName), minDistance);
    } else {
      m := Match(None, UnknownName, minDistance);
    }
  }

  // ----------------------------------------------------------- registration

  predicate SameDimension(es: seq<Embedding>)
  {
    forall i :: 0 <= i < |es| ==> |es[i]| == |es[0]|
  }

  function Column(es: seq<Embedding>, c: nat): seq<real>
    requires |es| > 0 && SameDimension(es) && c < |es[0]|
  {
    seq(|es|, i requires 0 <= i < |es| => es[i][c])
  }

  /** `np.mean(embeddings, axis=0)`. */
  function AverageEmbedding(es: seq<Embedding>): (avg: Embedding)
    requires |es| > 0 && SameDimension(es)
    ensures |avg| == |es[0]|
  {
    seq(|es[0]|, c requires 0 <= c < |es[0]| => Stats.Mean(Column(es, c)))
  }

  /** Averaging copies of one embedding gives that embedding back. */
  lemma AverageOfCopies(es: seq<Embedding>)
    requires |es| > 0
    requires forall i :: 0 <= i < |es| ==> es[i] == es[0]
    ensures AverageEmbedding(es) == es[0]
  {
    var avg := AverageEmbedding(es);
    forall c | 0 <= c < |es[0]| ensures avg[c] == es[0][c] {
      var col := Column(es, c);
      assert Stats.Constant(col, es[0][c]);
      Stats.MeanConstant(col, es[0][c]);
    }
  }

  /** The average lies within the per-coordinate range of the samples. */
  lemma AverageWithinRange(es: seq<Embedding>, c: nat, lo: real, hi: real)
    requires |es| > 0 && SameDimension(es) && c < |es[0]|
    requires forall i :: 0 <= i < |es| ==> lo <= es[i][c] <= hi
    ensures lo <= AverageEmbedding(es)[c] <= hi
  {
    Stats.MeanBounds(Column(es, c), lo, hi);
  }

  /**
   The map half of `register_face`: the id gets the average of the
   embeddings of the captured images and the given name; every other id
   keeps what it had. A new id goes last in key order and a known id keeps
   its place, which decides ties in `RecognizeFace`.
   */
  function RegisterFace(g: Gallery, id: D.Key, name: string, es: seq<Embedding>): (r: Gallery)
    requires Valid(g)
    requires |es| > 0 && SameDimension(es)
    ensures Valid(r)
    ensures D.Get(r.embeddings, id) == Some(AverageEmbedding(es))
    ensures D.Get(r.names, id) == Some(name)
    ensures forall k :: k != id ==> D.Get(r.embeddings, k) == D.Get(g.embeddings, k)
    ensures forall k :: k != id ==> D.Get(r.names, k) == D.Get(g.names, k)
    ensures D.Keys(r.embeddings)
            == if D.Has(g.embeddings, id) then D.Keys(g.embeddings) else D.Keys(g.embeddings) + [id]
    ensures D.Keys(r.names) == if D.Has(g.names, id) then D.Keys(g.names) else D.Keys(g.names) + [id]
  {
    Gallery(D.Set(g.embeddings, id, AverageEmbedding(es)), D.Set(g.names, id, name))
  }

  /** The in-memory half of `delete_employee`; a no-op for an unknown id. */
  function DeleteEmployee(g: Gallery, id: D.Key): (r: Gallery)
    requires Valid(g)
    ensures Valid(r)
    ensures D.Get(r.embeddings, id).None? && D.Get(r.names, id).None?
    ensures forall k :: k != id ==> D.Get(r.embeddings, k) == D.Get(g.embeddings, k)
    ensures forall k :: k != id ==> D.Get(r.names, k) == D.Get(g.names, k)
    ensures D.Keys(r.embeddings) == D.Without(D.Keys(g.embeddings), id)
    ensures D.Keys(r.names) == D.Without(D.Keys(g.names), id)
    ensures !D.Has(g.embeddings, id) && !D.Has(g.names, id) ==> r == g
  {
    Gallery(D.Remove(g.embeddings, id), D.Remove(g.names, id))
  }

  /** After deletion the id is never recognised again. */
  lemma DeletedNeverMatches(g: Gallery, id: D.Key, k: nat)
    requires Valid(g)
    requires k < |DeleteEmployee(g, id).embeddings.entries|
    ensures DeleteEmployee(g, id).embeddings.entries[k].0 != id
  {
    var r := DeleteEmployee(g, id);
    D.GetAt(r.embeddings, k);
  }

  // ------------------------------------------------------------ persistence

  /** The dictionary `{'embeddings': ..., 'names': ...}`, either key possibly missing. */
  datatype Stored = Stored(embeddings: Option<D.Dict<Embedding>>, names: Option<D.Dict<string>>)

  function SaveEmbeddings(g: Gallery): (s: Stored)
    ensures s.embeddings.Some? && s.names.Some?
    ensures Valid(g) ==> D.Valid(s.embeddings.value) && D.Valid(s.names.value)
  {
    Stored(Some(g.embeddings), Some(g.names))
  }

  /** `load_embeddings`: a missing key loads as an empty dictionary. */
  function LoadEmbeddings(s: Stored): (g: Gallery)
    requires s.embeddings.Some? ==> D.Valid(s.embeddings.value)
    requires s.names.Some? ==> D.Valid(s.names.value)
    ensures Valid(g)
    ensures s.embeddings.None? ==> g.embeddings.entries == []
    ensures s.names.None? ==> g.names.entries == []
    ensures s.embeddings.Some? ==> g.embeddings == s.embeddings.value
    ensures s.names.Some? ==> g.names == s.names.value
  {
    Gallery(s.embeddings.GetOr(D.Empty()), s.names.GetOr(D.Empty()))
  }

  /** Saving then loading restores both dictionaries, order included. */
  lemma LoadSaveRoundTrip(g: Gallery)
    requires Valid(g)
    ensures LoadEmbeddings(SaveEmbeddings(g)) == g
  {
  }

  lemma LoadNothingIsEmpty()
    ensures LoadEmbeddings(Stored(None, None)) == ClearMemory()
  {
  }
}

=== FILE: registration.dfy ===
/**
 The five-pose registration protocol of the kiosk window
 (`start_registration`, `capture_pose_image`, `complete_registration`,
 `cancel_registration`). Widgets, message boxes and the countdown's
 0.03-second timer arithmetic are not modelled: the timer is a number that
 the protocol resets, and "the pose was held long enough" is an event.
 */
module Registration {
  import opened Wrappers

  const PoseCount: nat := 5
  const PoseNames: seq<string> := ["CHÍNH DIỆN", "NGHIÊNG TRÁI", "NGHIÊNG PHẢI", "CÚI XUỐNG", "NGƯỚC LÊN"]

  /** Pixel data of a face crop; its content does not matter to the protocol. */
  type FaceCrop = seq<int>

  datatype RegState = RegState(
    mode: bool,
    images: seq<FaceCrop>,
    poses: seq<string>,
    poseIndex: nat,
    captured: seq<bool>,
    timer: real,
    currentFace: Option<FaceCrop>,
    employeeId: Option<string>,
    name: Option<string>)

  function NoneCaptured(): (flags: seq<bool>)
    ensures |flags| == PoseCount
    ensures forall k :: 0 <= k < PoseCount ==> !flags[k]
  {
    [false, false, false, false, false]
  }

  /** The state the window is constructed with. */
  function Initial(): RegState
  {
    RegState(false, [], [], 0, NoneCaptured(), 0.0, None, None, None)
  }

  function CountTrue(flags: seq<bool>): nat
  {
    if |flags| == 0 then 0 else (if flags[0] then 1 else 0) + CountTrue(flags[1..])
  }

  /**
   The protocol invariant: the first `poseIndex` poses are captured, in
   order, each with one image, and the rest are not.
   */
  predicate Inv(s: RegState)
  {
    && |s.captured| == PoseCount
    && s.poseIndex <= PoseCount
    && |s.images| == s.poseIndex
    && |s.poses| == s.poseIndex
    && (forall k :: 0 <= k < PoseCount ==> (s.captured[k] <==> k < s.poseIndex))
    && (forall k :: 0 <= k < s.poseIndex ==> s.poses[k] == PoseNames[k])
  }

  lemma {:induction false} CountTruePrefix(flags: seq<bool>, n: nat)
    requires n <= |flags|
    requires forall k :: 0 <= k < |flags| ==> (flags[k] <==> k < n)
    ensures CountTrue(flags) == n
  {
    if |flags| > 0 {
      var rest := flags[1..];
      if n > 0 {
        CountTruePrefix(rest, n - 1);
      } else {
        CountTruePrefix(rest, 0);
      }
    }
  }

  /** Under the invariant the number of captured flags is the pose index. */
  lemma InvCountsFlags(s: RegState)
    requires Inv(s)
    ensures CountTrue(s.captured) == s.poseIndex == |s.images| == |s.poses|
  {
    CountTruePrefix(s.captured, s.poseIndex);
  }

  lemma InitialInv()
    ensures Inv(Initial())
  {
  }

  // ------------------------------------------------------------------ start

  /** The characters Python's `str.isspace` accepts below code point 128. */
  predicate IsSpace(c: char)
  {
    c == ' ' || c == '\t' || c == '\n' || c == '\r' || c == '\U{B}' || c == '\U{C}'
    || c == '\U{1C}' || c == '\U{1D}' || c == '\U{1E}' || c == '\U{1F}'
  }

  function StripLeft(s: string): (r: string)
    ensures |r| <= |s| && r == s[|s| - |r|..]
    ensures forall i :: 0 <= i < |s| - |r| ==> IsSpace(s[i])
    ensures |r| > 0 ==> !IsSpace(r[0])
  {
    if |s| > 0 && IsSpace(s[0]) then StripLeft(s[1..]) else s
  }

  function StripRight(s: string): (r: string)
    ensures |r| <= |s| && r == s[..|r|]
    ensures forall i :: |r| <= i < |s| ==> IsSpace(s[i])
    ensures |r| > 0 ==> !IsSpace(r[|r| - 1])
  {
    if |s| > 0 && IsSpace(s[|s| - 1]) then StripRight(s[..|s| - 1]) else s
  }

  /** `r` occurs in `s` at offset `a`. */
  predicate InfixAt(s: string, r: string, a: int)
  {
    0 <= a <= |s| - |r| && r == s[a..a + |r|]
  }

  /** Everything of `s` outside the infix `r` at offset `a` is whitespace. */
  predicate TrimmedAt(s: string, r: string, a: int)
  {
    && InfixAt(s, r, a)
    && (forall i :: 0 <= i < a ==> IsSpace(s[i]))
    && (forall i :: a + |r| <= i < |s| ==> IsSpace(s[i]))
  }

  /**
   `str.strip()`: removes whitespace, and only whitespace, from both ends,
   leaving no whitespace at either end.
   */
  function Strip(s: string): (r: string)
    ensures |r| == 0 <==> forall i :: 0 <= i < |s| ==> IsSpace(s[i])
    ensures |r| > 0 ==> !IsSpace(r[0]) && !IsSpace(r[|r| - 1])
    ensures exists a :: TrimmedAt(s, r, a)
  {
    var l := StripLeft(s);
    var r := StripRight(l);
    StripSteps(s, l, r);
    r
  }

  lemma {:induction false} StripSteps(s: string, l: string, r: string)
    requires l == StripLeft(s) && r == StripRight(l)
    ensures TrimmedAt(s, r, |s| - |l|)
    ensures |r| == 0 <==> forall i :: 0 <= i < |s| ==> IsSpace(s[i])
  {
    var a := |s| - |l|;
    PrefixOfSuffix(s, l, r);
    SpacesAfter(s, l, |r|);
    if |r| > 0 {
      assert r[0] == l[0] == s[a];
    } else {
      assert |l| == 0;
    }
  }

  /**
   The contract of `Strip` pins its result: an infix with only whitespace
   outside it and none at its ends is exactly `Strip(s)`.
   */
  lemma StripUnique(s: string, r: string, a: int)
    requires TrimmedAt(s, r, a)
    requires |r| > 0 ==> !IsSpace(r[0]) && !IsSpace(r[|r| - 1])
    ensures r == Strip(s)
  {
    var t := Strip(s);
    var b :| TrimmedAt(s, t, b);
    if |r| > 0 {
      assert s[a] == r[0];
      assert |t| > 0;
      assert s[b] == t[0];
      assert a == b;
      assert s[a + |r| - 1] == r[|r| - 1];
      assert s[b + |t| - 1] == t[|t| - 1];
      assert |r| == |t|;
    } else {
      assert forall i :: 0 <= i < |s| ==> IsSpace(s[i]);
    }
  }

  /** Whitespace at the end of a suffix of `s` is whitespace at the end of `s`. */
  lemma SpacesAfter(s: string, l: string, n: nat)
    requires |l| <= |s| && l == s[|s| - |l|..] && n <= |l|
    requires forall i :: n <= i < |l| ==> IsSpace(l[i])
    ensures forall i :: |s| - |l| + n <= i < |s| ==> IsSpace(s[i])
  {
    var a := |s| - |l|;
    forall i | a + n <= i < |s| ensures IsSpace(s[i]) {
      assert s[i] == l[i - a];
    }
  }

  /** A prefix of a suffix is an infix. */
  lemma PrefixOfSuffix(s: string, l: string, r: string)
    requires |l| <= |s| && l == s[|s| - |l|..] && |r| <= |l| && r == l[..|r|]
    ensures InfixAt(s, r, |s| - |l|)
  {
  }

  datatype StartOutcome = MissingFields | CameraOff | Started

  /**
   `start_registration`: refused (nothing changes) when the stripped id or
   name is empty, or when the camera is not running.
   */
  function StartRegistration(s: RegState, rawId: string, rawName: string, cameraRunning: bool)
    : (r: (RegState, StartOutcome))
    ensures r.1 == MissingFields <==> |Strip(rawId)| == 0 || |Strip(rawName)| == 0
    ensures r.1 == CameraOff <==> |Strip(rawId)| > 0 && |Strip(rawName)| > 0 && !cameraRunning
    ensures r.1 != Started ==> r.0 == s
    ensures r.1 == Started ==>
              && r.0.mode && r.0.poseIndex == 0 && r.0.images == [] && r.0.poses == []
              && (forall k :: 0 <= k < |r.0.captured| ==> !r.0.captured[k])
              && r.0.timer == 0.0 && r.0.currentFace.None?
              && r.0.employeeId == Some(Strip(rawId)) && r.0.name == Some(Strip(rawName))
    ensures r.1 == Started ==> Inv(r.0)
  {
    var id, name := Strip(rawId), Strip(rawName);
    if |id| == 0 || |name| == 0 then (s, MissingFields)
    else if !cameraRunning then (s, CameraOff)
    else (RegState(true, [], [], 0, NoneCaptured(), 0.0, None, Some(id), Some(name)), Started)
  }

  // ---------------------------------------------------------------- capture

  /** The camera loop stores the latest real face seen while registering. */
  function SeeFace(s: RegState, face: FaceCrop): (r: RegState)
    ensures r.currentFace == (if s.mode then Some(face) else s.currentFace)
    ensures r.(currentFace := s.currentFace) == s
    ensures Inv(s) ==> Inv(r)
  {
    if s.mode then s.(currentFace := Some(face)) else s
  }

  /**
   `capture_pose_image`: a no-op once five poses are taken or without a
   current face; otherwise the current face is taken for the current pose.
   The flag reports that the last pose was taken, which schedules
   `complete_registration`.
   */
  function CapturePoseImage(s: RegState): (r: (RegState, bool))
    requires |s.captured| == PoseCount
    ensures s.poseIndex >= PoseCount || s.currentFace.None? ==> r == (s, false)
    ensures Inv(s) ==> Inv(r.0)
    ensures Inv(s) && s.poseIndex < PoseCount && s.currentFace.Some? ==>
              && r.0.images == s.images + [s.currentFace.value]
              && r.0.poses == s.poses + [PoseNames[s.poseIndex]]
              && r.0.captured == s.captured[s.poseIndex := true]
              && r.0.poseIndex == s.poseIndex + 1
              && r.0.timer == 0.0 && r.0.currentFace.None?
              && r.0.mode == s.mode && r.0.employeeId == s.employeeId && r.0.name == s.name
              && (r.1 <==> r.0.poseIndex == PoseCount)
  {
    if s.poseIndex >= PoseCount || s.currentFace.None? then (s, false)
    else if s.captured[s.poseIndex] then (s, false)
    else
      var i := s.poseIndex;
      var s' := s.(images := s.images + [s.currentFace.value],
                   poses := s.poses + [PoseNames[i]],
                   captured := s.captured[i := true],
                   poseIndex := i + 1,
                   timer := 0.0,
                   currentFace := None);
      (s', i + 1 >= PoseCount)
  }

  /** The countdown ran out while a face was held: capture it. */
  function HoldElapsed(s: RegState): (r: (RegState, bool))
    requires |s.captured| == PoseCount
    ensures !s.mode || s.currentFace.None? ==> r == (s, false)
    ensures Inv(s) ==> Inv(r.0)
  {
    if s.mode && s.currentFace.Some? then CapturePoseImage(s) else (s, false)
  }

  /** The state after holding each face of `faces` in turn, one pose per face. */
  function Session(s: RegState, faces: seq<FaceCrop>): RegState
    requires Inv(s)
    ensures Inv(Session(s, faces))
  {
    if |faces| == 0 then s
    else HoldElapsed(SeeFace(Session(s, faces[..|faces| - 1]), faces[|faces| - 1])).0
  }

  lemma TakeOneMore<T>(xs: seq<T>, n: nat)
    requires 0 < n <= |xs|
    ensures xs[..n] == xs[..n - 1] + [xs[n - 1]]
  {
  }

  /** One held face in registration mode, below five poses, is captured for the current pose. */
  lemma HoldCaptures(t: RegState, face: FaceCrop)
    requires Inv(t) && t.mode && t.poseIndex < PoseCount
    ensures var u := HoldElapsed(SeeFace(t, face)).0;
            u.mode && u.images == t.images + [face] && u.poses == t.poses + [PoseNames[t.poseIndex]]
            && u.poseIndex == t.poseIndex + 1
  {
    var seen := SeeFace(t, face);
    assert seen == t.(currentFace := Some(face));
    assert Inv(seen);
  }

  /**
   After a successful start, holding k <= 5 faces captures exactly those
   faces, in the five poses' order.
   */
  lemma {:induction false} SessionCaptures(s: RegState, faces: seq<FaceCrop>)
    requires Inv(s) && s.mode && s.poseIndex == 0
    requires |faces| <= PoseCount
    ensures var t := Session(s, faces);
            t.mode && t.images == faces && t.poses == PoseNames[..|faces|] && t.poseIndex == |faces|
  {
    if |faces| > 0 {
      var n := |faces|;
      var init := faces[..n - 1];
      SessionCaptures(s, init);
      var t := Session(s, init);
      HoldCaptures(t, faces[n - 1]);
      assert Session(s, faces) == HoldElapsed(SeeFace(t, faces[n - 1])).0;
      TakeOneMore(PoseNames, n);
      TakeOneMore(faces, n);
    }
  }

  // ------------------------------------------------------- complete, cancel

  datatype CompleteOutcome =
    | TooFewImages
    | DuplicateId
    | Register(employeeId: Option<string>, name: Option<string>, images: seq<FaceCrop>, poses: seq<string>)

  /**
   `complete_registration`: registration mode always ends. With fewer than
   five images nothing else changes. Otherwise the face is registered when
   the database accepted the employee (`added`), and the captured images,
   poses, index and flags are reset either way.
   */
  function CompleteRegistration(s: RegState, added: bool): (r: (RegState, CompleteOutcome))
    ensures !r.0.mode
    ensures |s.images| < PoseCount ==> r == (s.(mode := false), TooFewImages)
    ensures |s.images| >= PoseCount ==>
              && r.0.images == [] && r.0.poses == [] && r.0.poseIndex == 0 && r.0.captured == NoneCaptured()
              && r.0.timer == s.timer && r.0.currentFace == s.currentFace
              && r.0.employeeId == s.employeeId && r.0.name == s.name
              && (added ==> r.1 == Register(s.employeeId, s.name, s.images, s.poses))
              && (!added ==> r.1 == DuplicateId)
    ensures Inv(s) ==> Inv(r.0)
  {
    var s1 := s.(mode := false);
    if |s.images| < PoseCount then (s1, TooFewImages)
    else
      var outcome := if added then Register(s.employeeId, s.name, s.images, s.poses) else DuplicateId;
      (s1.(images := [], poses := [], poseIndex := 0, captured := NoneCaptured()), outcome)
  }

  /** A protocol that reached the end hands over five images taken in the five poses. */
  lemma CompleteHandsOverFivePoses(s: RegState)
    requires Inv(s) && s.poseIndex == PoseCount
    ensures var r := CompleteRegistration(s, true);
            r.1.Register? && |r.1.images| == PoseCount && r.1.poses == PoseNames
  {
    assert s.poses == PoseNames;
  }

  /** `cancel_registration`: back to the initial protocol state. */
  function CancelRegistration(s: RegState): (r: RegState)
    ensures Inv(r)
    ensures r == Initial().(employeeId := s.employeeId, name := s.name)
  {
    s.(mode := false, images := [], poses := [], poseIndex := 0, captured := NoneCaptured(),
       timer := 0.0, currentFace := None)
  }
}

=== FILE: scorers.dfy ===
/**
 The three image scorers of `AntiSpoofing`: texture, motion and depth.
 Each is a weighted sum of terms `min(x, 1.0) * w` whose weights sum to 1.
 The OpenCV/numpy measurements they weigh (FFT band ratio, Canny edge
 density, HSV histogram variance, Sobel gradient mean, Otsu dark/bright
 ratios, contour count, Farneback flow statistics) enter as numbers; the
 LBP variance is computed here from the grey-level crop.
 */
module Scorers {
  import opened Wrappers
  import opened Stats
  import opened LocalBinaryPattern

  /** Python's `min(x, 1.0)`. */
  function Cap(x: real): (r: real)
    ensures r <= 1.0
    ensures r == x || r == 1.0
    ensures x <= 1.0 ==> r == x
  {
    if 1.0 < x then 1.0 else x
  }

  /** One weighted term `min(x, 1.0) * w`: at most `w`, and non-negative when `x` is. */
  function Term(x: real, w: real): (r: real)
    requires w >= 0.0
    ensures r <= w
    ensures x >= 0.0 ==> r >= 0.0
  {
    Scale(Cap(x), w);
    Cap(x) * w
  }

  lemma Scale(a: real, w: real)
    requires a <= 1.0 && w >= 0.0
    ensures a * w <= w
    ensures a >= 0.0 ==> a * w >= 0.0
  {
    assert w - a * w == (1.0 - a) * w;
  }

  // ---------------------------------------------------------------- texture

  /** numpy's row-major flattening of the code grid, as reals. */
  function Flatten(g: seq<seq<int>>): (r: seq<real>)
    ensures |g| > 0 ==> |r| >= |g[0]|
  {
    if |g| == 0 then [] else seq(|g[0]|, c requires 0 <= c < |g[0]| => g[0][c] as real) + Flatten(g[1..])
  }

  lemma {:induction false} FlattenZero(g: seq<seq<int>>)
    requires forall a, b :: 0 <= a < |g| && 0 <= b < |g[a]| ==> g[a][b] == 0
    ensures Constant(Flatten(g), 0.0)
  {
    if |g| > 0 {
      assert forall a, b :: 0 <= a < |g[1..]| && 0 <= b < |g[1..][a]| ==> g[1..][a][b] == g[a + 1][b];
      FlattenZero(g[1..]);
    }
  }

  /** Crops large enough for the code grid to be non-empty (a face crop is 160 x 160). */
  predicate TextureDefined(gray: Gray)
  {
    LbpDefined(gray) && |gray| >= 3 && |gray[0]| >= 3
  }

  /** `np.var(self._compute_lbp(gray))`. */
  function LbpVariance(gray: Gray): (r: real)
    requires TextureDefined(gray)
    ensures r >= 0.0
  {
    PopVariance(Flatten(Lbp(gray)))
  }

  lemma UniformLbpVarianceZero(gray: Gray)
    requires TextureDefined(gray) && Uniform(gray)
    ensures LbpVariance(gray) == 0.0
  {
    UniformLbpZero(gray);
    var f := Flatten(Lbp(gray));
    FlattenZero(Lbp(gray));
    ConstantVarianceZero(f);
  }

  datatype TextureMeasurements = TextureMeasurements(
    lbpVariance: real,    // variance of the LBP codes
    highFreqRatio: real,  // FFT magnitude in the top and bottom quarter rows over the total
    edgeDensity: real,    // fraction of Canny edge pixels
    histVariance: real)   // variance of the hue/saturation histogram

  predicate TextureNonNegative(m: TextureMeasurements)
  {
    m.lbpVariance >= 0.0 && m.highFreqRatio >= 0.0 && m.edgeDensity >= 0.0 && m.histVariance >= 0.0
  }

  /** The scoring tail of `texture_analysis`: four terms of weight 0.25. */
  function TextureScore(m: TextureMeasurements): (r: real)
    ensures r <= 1.0
    ensures TextureNonNegative(m) ==> 0.0 <= r
  {
    Term(m.lbpVariance / 1000.0, 0.25) + Term(m.highFreqRatio * 10.0, 0.25)
    + Term(m.edgeDensity * 20.0, 0.25) + Term(m.histVariance / 10000.0, 0.25)
  }

  /** `texture_analysis` on a grey crop, with the library measurements supplied. */
  function TextureAnalysis(gray: Gray, highFreqRatio: real, edgeDensity: real, histVariance: real): (r: real)
    requires TextureDefined(gray)
    ensures r <= 1.0
    ensures highFreqRatio >= 0.0 && edgeDensity >= 0.0 && histVariance >= 0.0 ==> 0.0 <= r
  {
    TextureScore(TextureMeasurements(LbpVariance(gray), highFreqRatio, edgeDensity, histVariance))
  }

  /** A flat crop with no high frequencies and no edges keeps only the colour term, at most 0.25. */
  lemma FlatTexture(gray: Gray, histVariance: real)
    requires TextureDefined(gray) && Uniform(gray)
    ensures TextureAnalysis(gray, 0.0, 0.0, histVariance) <= 0.25
  {
    UniformLbpVarianceZero(gray);
    assert Term(0.0 / 1000.0, 0.25) == 0.0;
    assert Term(0.0 * 10.0, 0.25) == 0.0;
    assert Term(0.0 * 20.0, 0.25) == 0.0;
  }

  predicate TextureLe(m1: TextureMeasurements, m2: TextureMeasurements)
  {
    m1.lbpVariance <= m2.lbpVariance && m1.highFreqRatio <= m2.highFreqRatio
    && m1.edgeDensity <= m2.edgeDensity && m1.histVariance <= m2.histVariance
  }

  lemma CapMonotone(x: real, y: real)
    requires x <= y
    ensures Cap(x) <= Cap(y)
  {
  }

  /** More of every measurement never lowers the texture score. */
  lemma TextureMonotone(m1: TextureMeasurements, m2: TextureMeasurements)
    requires TextureLe(m1, m2)
    ensures TextureScore(m1) <= TextureScore(m2)
  {
    CapMonotone(m1.lbpVariance / 1000.0, m2.lbpVariance / 1000.0);
    CapMonotone(m1.highFreqRatio * 10.0, m2.highFreqRatio * 10.0);
    CapMonotone(m1.edgeDensity * 20.0, m2.edgeDensity * 20.0);
    CapMonotone(m1.histVariance / 10000.0, m2.histVariance / 10000.0);
  }

  /**
   Below the cap of 1000, a crop with more LBP variance scores strictly higher
   than one with less, all other measurements equal.
   */
  lemma TextureRanksLbpVariance(m1: TextureMeasurements, m2: TextureMeasurements)
    requires m1.highFreqRatio == m2.highFreqRatio && m1.edgeDensity == m2.edgeDensity
    requires m1.histVariance == m2.histVariance
    requires m1.lbpVariance < m2.lbpVariance && m1.lbpVariance < 1000.0
    ensures TextureScore(m1) < TextureScore(m2)
  {
  }

  // ----------------------------------------------------------------- motion

  /** numpy array shape (height, width, channels). */
  datatype Shape = Shape(height: nat, width: nat, channels: nat)

  datatype FlowStats = FlowStats(
    magnitudeVariance: real,  // np.var of the flow magnitude
    angleEntropy: real,       // entropy of the 36-bin angle histogram
    magnitudeMean: real)      // np.mean of the flow magnitude

  predicate FlowNonNegative(f: FlowStats)
  {
    f.magnitudeVariance >= 0.0 && f.angleEntropy >= 0.0 && f.magnitudeMean >= 0.0
  }

  const Neutral: real := 0.5

  /**
   `motion_analysis`: neutral without a previous frame or when the shapes
   differ. The source then resizes on a grey-shape mismatch, but equal colour
   shapes give equal grey shapes, so that branch is never taken and is not
   modelled. The entropy carries `+1e-6` inside its logarithm and can come out
   slightly negative, so the lower bound needs non-negative flow statistics.
   */
  function MotionAnalysis(current: Shape, prev: Option<Shape>, flow: FlowStats): (r: real)
    ensures prev.None? ==> r == Neutral
    ensures prev.Some? && prev.value != current ==> r == Neutral
    ensures r <= 1.0
    ensures FlowNonNegative(flow) ==> 0.0 <= r
    ensures prev == Some(current) ==> r <= Term(flow.magnitudeVariance / 10.0, 0.4) + 0.6
  {
    match prev
    case None => Neutral
    case Some(p) =>
      if current != p then Neutral
      else
        Term(flow.magnitudeVariance / 10.0, 0.4) + Term(flow.angleEntropy / 5.0, 0.3)
        + Term(flow.magnitudeMean / 5.0, 0.3)
  }

  /** A still scene (no flow at all) scores at most the entropy term's weight, 0.3. */
  lemma StillSceneMotion(current: Shape, flow: FlowStats)
    requires flow.magnitudeVariance == 0.0 && flow.magnitudeMean == 0.0
    ensures MotionAnalysis(current, Some(current), flow) <= 0.3
  {
  }

  // ------------------------------------------------------------------ depth

  datatype DepthMeasurements = DepthMeasurements(
    gradientMean: real,   // mean Sobel gradient magnitude
    darkRatio: real,      // fraction of Otsu-dark pixels
    brightRatio: real,    // fraction of Otsu-bright pixels
    contourCount: nat)    // contours found by the hierarchical search

  /** The scoring tail of `depth_analysis`: weights 0.4, 0.3 and 0.3. */
  function DepthScore(m: DepthMeasurements): (r: real)
    ensures r <= 1.0
    ensures m.gradientMean >= 0.0 ==> 0.0 <= r
  {
    var contrast := if m.darkRatio >= m.brightRatio then m.darkRatio - m.brightRatio else m.brightRatio - m.darkRatio;
    Term(m.gradientMean / 50.0, 0.4) + Term(contrast * 5.0, 0.3) + Term((m.contourCount as real) / 100.0, 0.3)
  }

  /** A flat crop (no gradient) scores at most the two shadow/contour weights, 0.6. */
  lemma FlatDepth(m: DepthMeasurements)
    requires m.gradientMean == 0.0
    ensures DepthScore(m) <= 0.6
  {
  }
}

=== FILE: stats.dfy ===
/**
 Sums, means and the population variance (numpy's `np.mean` / `np.var`
 with the default ddof = 0) over sequences of reals.
 */
module Stats {

  function Sum(s: seq<real>): real
  {
    if |s| == 0 then 0.0 else s[0] + Sum(s[1..])
  }

  /** Arithmetic mean; numpy yields NaN on an empty array, so it is excluded here. */
  function Mean(s: seq<real>): real
    requires |s| > 0
  {
    Sum(s) / (|s| as real)
  }

  function Square(d: real): (r: real)
    ensures r >= 0.0
  {
    d * d
  }

  /** Sum of squared deviations from `m`. */
  function SquaredDeviation(s: seq<real>, m: real): (r: real)
    ensures r >= 0.0
  {
    if |s| == 0 then 0.0 else Square(s[0] - m) + SquaredDeviation(s[1..], m)
  }

  /** `np.var`: the mean squared deviation from the mean (population variance). */
  function PopVariance(s: seq<real>): (r: real)
    requires |s| > 0
    ensures r >= 0.0
  {
    SquaredDeviation(s, Mean(s)) / (|s| as real)
  }

  predicate AllIn(s: seq<real>, lo: real, hi: real)
  {
    forall i :: 0 <= i < |s| ==> lo <= s[i] <= hi
  }

  predicate Constant(s: seq<real>, c: real)
  {
    forall i :: 0 <= i < |s| ==> s[i] == c
  }

  lemma {:induction false} SumConcat(a: seq<real>, b: seq<real>)
    ensures Sum(a + b) == Sum(a) + Sum(b)
  {
    if |a| == 0 {
      assert a + b == b;
    } else {
      assert (a + b)[1..] == a[1..] + b;
      SumConcat(a[1..], b);
    }
  }

  /** Every element in [lo, hi] puts the sum in [n*lo, n*hi]. */
  lemma {:induction false} SumBounds(s: seq<real>, lo: real, hi: real)
    requires AllIn(s, lo, hi)
    ensures (|s| as real) * lo <= Sum(s) <= (|s| as real) * hi
  {
    if |s| > 0 {
      assert AllIn(s[1..], lo, hi) by {
        forall i | 0 <= i < |s[1..]| ensures lo <= s[1..][i] <= hi {
          assert s[1..][i] == s[i + 1];
        }
      }
      SumBounds(s[1..], lo, hi);
    }
  }

  /** The mean of values in [lo, hi] lies in [lo, hi]. */
  lemma MeanBounds(s: seq<real>, lo: real, hi: real)
    requires |s| > 0
    requires AllIn(s, lo, hi)
    ensures lo <= Mean(s) <= hi
  {
    SumBounds(s, lo, hi);
    var n := |s| as real;
    assert n * lo <= Sum(s) <= n * hi;
    assert Sum(s) / n >= lo by {
      assert Sum(s) >= lo * n;
    }
    assert Sum(s) / n <= hi by {
      assert Sum(s) <= hi * n;
    }
  }

  /** Taking element k out of a sequence takes exactly t[k] off its sum. */
  lemma SumRemove(t: seq<real>, k: nat)
    requires k < |t|
    ensures Sum(t) == t[k] + Sum(t[..k] + t[k + 1..])
  {
    var tail := [t[k]] + t[k + 1..];
    assert t == t[..k] + tail;
    SumConcat(t[..k], tail);
    assert tail[1..] == t[k + 1..];
    assert Sum(tail) == t[k] + Sum(t[k + 1..]);
    SumConcat(t[..k], t[k + 1..]);
  }

  lemma MultisetRemove<T>(t: seq<T>, k: nat)
    requires k < |t|
    ensures multiset(t[..k] + t[k + 1..]) == multiset(t) - multiset{t[k]}
  {
    assert t == t[..k] + [t[k]] + t[k + 1..];
  }

  /** The head of a sequence occurs in any permutation of it. */
  lemma HeadIn<T>(s: seq<T>, t: seq<T>) returns (k: nat)
    requires |s| > 0 && multiset(s) == multiset(t)
    ensures k < |t| && t[k] == s[0]
  {
    assert s[0] in multiset(t) by { assert s[0] in multiset(s); }
    k :| 0 <= k < |t| && t[k] == s[0];
  }

  /** Removing the head's occurrence from a permutation leaves a permutation of the tail. */
  lemma PermutationTail<T>(s: seq<T>, t: seq<T>, k: nat)
    requires |s| > 0 && multiset(s) == multiset(t) && k < |t| && t[k] == s[0]
    ensures multiset(t[..k] + t[k + 1..]) == multiset(s[1..])
  {
    MultisetRemove(t, k);
    assert s == [s[0]] + s[1..];
    assert multiset(s) == multiset{s[0]} + multiset(s[1..]);
  }

  /** The sum (hence the mean) does not depend on the order of the elements. */
  lemma {:induction false} SumPermutation(s: seq<real>, t: seq<real>)
    requires multiset(s) == multiset(t)
    ensures Sum(s) == Sum(t)
    decreases |s|
  {
    if |s| == 0 {
      assert |t| == |multiset(t)| == 0;
    } else {
      var k := HeadIn(s, t);
      PermutationTail(s, t, k);
      SumPermutation(s[1..], t[..k] + t[k + 1..]);
      SumRemove(t, k);
    }
  }

  lemma MeanPermutation(s: seq<real>, t: seq<real>)
    requires |s| > 0
    requires multiset(s) == multiset(t)
    ensures |t| > 0 && Mean(s) == Mean(t)
  {
    assert |s| == |multiset(s)| == |multiset(t)| == |t|;
    SumPermutation(s, t);
  }

  lemma {:induction false} SumConstant(s: seq<real>, c: real)
    requires Constant(s, c)
    ensures Sum(s) == (|s| as real) * c
  {
    if |s| > 0 {
      assert Constant(s[1..], c) by {
        forall i | 0 <= i < |s[1..]| ensures s[1..][i] == c {
          assert s[1..][i] == s[i + 1];
        }
      }
      SumConstant(s[1..], c);
    }
  }

  lemma MeanConstant(s: seq<real>, c: real)
    requires |s| > 0 && Constant(s, c)
    ensures Mean(s) == c
  {
    SumConstant(s, c);
    var n := |s| as real;
    assert Mean(s) == n * c / n;
  }

  lemma {:induction false} SquaredDeviationConstant(s: seq<real>, c: real)
    requires Constant(s, c)
    ensures SquaredDeviation(s, c) == 0.0
  {
    if |s| > 0 {
      assert Constant(s[1..], c) by {
        forall i | 0 <= i < |s[1..]| ensures s[1..][i] == c {
          assert s[1..][i] == s[i + 1];
        }
      }
      SquaredDeviationConstant(s[1..], c);
    }
  }

  /** A sequence of equal values has population variance exactly 0. */
  lemma ConstantVarianceZero(s: seq<real>)
    requires |s| > 0
    requires Constant(s, s[0])
    ensures PopVariance(s) == 0.0
  {
    MeanConstant(s, s[0]);
    SquaredDeviationConstant(s, s[0]);
  }
}

=== FILE: wrappers.dfy ===
/** Option, the model's stand-in for Python's `None`-or-value. */
module Wrappers {

  datatype Option<+T> = None | Some(value: T) {

    /** The wrapped value, or `default` when absent (Python's `dict.get(k, default)`). */
    function GetOr(default: T): T {
      match this
      case Some(v) => v
      case None => default
    }
  }
}
